=== FILE: README.md ===
# NFL prop projections: a Dafny model of the projection core

This project models the deterministic core of an NFL player-prop analyser:

- the lineup check that resolves a user's declared starters against the official depth chart;
- the usage deriver that turns trailing snap counts and news flags into rush, target and red-zone shares;
- the scenario, weather and rivalry adjusters;
- the per-player projection (mean and floor yards, receptions and touchdowns);
- the WR1 slice of the team projection;
- the demo engine, which adds triple-conservative ("TC") floor fields to baseline records and builds the demo game from the constant baseline table.

Modelling choices:

- Every float is an exact `real`. "Sums to one" therefore means exactly one.
- Python exceptions become `Failure` values of a `Result`:
  - `KeyError` becomes `MissingKey`.
  - `IndexError` becomes `IndexOutOfRange`.
  - The `ValueError` for an unlisted starter becomes `NotListed`.
  - The engine's `TypeError` for arithmetic on a string stat becomes `NotANumber`.
- Dictionaries whose iteration order matters (the snaps, the usage, the baselines, the results) are insertion-ordered sequences of `(name, value)` pairs (`Dicts.Dict`).
- Dictionaries that are only looked up are Dafny maps.
- Data the program fetches (depth chart, snaps, news flags, matchup metrics, weather) enters as parameters.

Modules, one per file:

| file | module | models |
|---|---|---|
| wrappers.dfy | Wrappers | `Option` and `Result` |
| dicts.dfy | Dicts | ordered dictionaries, `Keys` and first-match `Lookup` |
| starters.dfy | Starters | `StarterConfig`, `validate_and_build_starters` |
| usage.dfy | Usage | `PlayerUsage`, `derive_usage_from_snaps` |
| adjusters.dfy | Adjusters | `scenario_probs`, `apply_weather_factor`, `apply_rivalry_factor` |
| projection.dfy | Projection | `PlayerProjection`, `project_player_yards` |
| team.dfy | Team | the WR1 slice of `build_team_projections` |
| engine.dfy | Engine | `DEMO_BASELINES`, `apply_tc_floors`, `project_game` |

Two behaviours of the code are worth spelling out:

- **Blank optional starters.** The docstring of `validate_and_build_starters` (projections_pipeline.py:66) says blanks are filled from the chart. The code fills only a mandatory slot declared as `None`, with the chart's entry at a fixed index. A blank (falsy) rb2, wr3 or te2 becomes `None` with no fill, and an unlisted name is rejected. `Starters.ValidateAndBuildStarters` follows the code, and `Starters.BlankRb2IsNotFilled` pins the difference down.
- **Red-zone shares.** The code renormalises only the rush and target shares. Red-zone shares keep the news multiplier and can exceed one (`Usage.RedZoneShareCanExceedOne`).

The news multiplier is written per case: `Nudge(n, x)` is `x * 1.1`, `x * 0.9` or `x`, so the function bodies hold no product of two unknowns, which keeps the solver's nonlinear arithmetic small. `Usage.NudgeScales` proves this equals `x * Multiplier(n)`. For the same reason, no function body combines the projection's shrink, weather and rivalry factors into one; the combined factor (`Projection.CombinedFactor`) appears only in contracts and lemmas (`Projection.MeanYardsClosedForm`, `Team.Wr1Projection`).

## Model

| member | source | states |
|---|---|---|
| Dicts.Lookup | projections_pipeline.py:251 | `usage[name]` finds an entry exactly when the name is a key, and the value found is stored under that name |
| Starters.Ensure | projections_pipeline.py:68-73 | a supplied name succeeds exactly when it is listed at the position and is returned unchanged; a `None` succeeds exactly when the chart has the index and yields that entry; a missing position is a KeyError, an unlisted name a ValueError naming player and position, a short chart an IndexError |
| Starters.ValidateAndBuildStarters | projections_pipeline.py:62-84 | the lineup resolves exactly when every slot resolves; every resolved name is on the chart at its position; supplied mandatory names are kept and `None` ones take index 0 (qb, rb1, wr1, te1) or 1 (wr2); blank optional slots become `None` with no fill and others are kept; every failure names a position and says why (position missing, index past the chart, unlisted supplied player) |
| Starters.EnsureOptional | projections_pipeline.py:77-83 | a blank optional slot resolves to no player; any other succeeds exactly when the name is listed at the position and is kept; a failure is a KeyError for a missing position or an error naming the unlisted player |
| Starters.FirstUnresolvedRaises | projections_pipeline.py:75-84 | the slots are resolved in the order qb, rb1, rb2, wr1, wr2, wr3, te1, te2, so the error raised is that of the first slot that does not resolve: a missing position, a `None` slot past the chart's end, or the supplied unlisted name |
| Starters.FailsAtFirstUnresolved | projections_pipeline.py:75-84 | the lineup fails exactly when some slot, in building order, is the first one that does not resolve |
| Starters.UnlistedQuarterbackRejected | projections_pipeline.py:68-76 | a supplied quarterback missing from the chart fails with an error naming the player and "QB" |
| Starters.BlankRb2IsNotFilled | projections_pipeline.py:77-78 | a blank rb2 stays empty even when the chart lists a second back, while a `None` rb1 takes the first back |
| Usage.OrOne | projections_pipeline.py:107-110 | `total or 1.0` gives exactly one for a zero total and leaves every other total alone |
| Usage.NewsOf | projections_pipeline.py:118-123 | the flag counts as "up" exactly for the value "arrow_up" and as "down" exactly for "arrow_down"; anything else, or no flag, is neutral |
| Usage.NudgeScales | projections_pipeline.py:119-130 | the per-case nudge equals multiplication by 1.1, 0.9 or 1.0 and keeps a non-negative value within 10% |
| Usage.DeriveUsageFromSnaps | projections_pipeline.py:105-140 | one usage record per input player, same names in the same order, with the snap percentage copied unchanged whatever the flag |
| Usage.WeightedShareReference | projections_pipeline.py:107-138 | each final rush or target share equals the player's nudged count over the team's nudged total, which is positive: the two passes agree with a one-pass reference |
| Usage.SharesSumToOne | projections_pipeline.py:134-138 | with non-negative counts and one positive count, the rush (or target) shares sum to exactly one and each lies in [0, 1] |
| Usage.PositiveRawTotal | projections_pipeline.py:107-131 | a positive team total gives a positive first-pass total, so the renormalisation divides by it |
| Usage.RawSharesNonNegative | projections_pipeline.py:113-130 | non-negative counts give non-negative first-pass shares |
| Usage.NoFlagsGivesPlainShares | projections_pipeline.py:107-138 | without news flags every share is the plain count over the zero-floored team total |
| Usage.ZeroCountsGiveZeroShares | projections_pipeline.py:107-138 | all-zero (or absent) counts give zero shares, with no division by zero |
| Usage.RedZoneSharesNotRenormalised | projections_pipeline.py:115-138 | red-zone shares are the nudged first-pass fractions, never renormalised; with non-negative counts and a positive total their sum lies in [0.9, 1.1] instead of being one |
| Usage.RedZoneShareCanExceedOne | projections_pipeline.py:115-130 | a lone player flagged "arrow_up" gets a red-zone share of 1.1 |
| Usage.TwoBacksExample | projections_pipeline.py:107-138 | 180 and 80 carries with no news split the rushes 9/13 and 4/13 |
| Adjusters.ScenarioProbs | projections_pipeline.py:145-152 | every value is a probability in (0, 1]; normal is 0.5; wr1_bracket and rb_erased are 0.2 exactly when their flag is set and 0.1 otherwise; ol_collapse is 0.1 or 0.05 likewise |
| Adjusters.WeatherFactor | projections_pipeline.py:156-168 | a pass factor lies in [0.88, 1], is 1 exactly in calm dry weather and 0.88 in wind and rain; a non-pass factor is 1.03 exactly when windy or wet and 1 otherwise |
| Adjusters.ClampNonNegative | projections_pipeline.py:169 | `max(x, 0.0)` is non-negative, at least x, and either x or zero |
| Adjusters.ApplyWeatherFactor | projections_pipeline.py:155-169 | the result is never negative and is zero for a non-positive stat; a pass stat keeps between 88% and 100%, a non-pass stat between 100% and 103%; calm weather only clamps |
| Adjusters.ApplyRivalryFactor | projections_pipeline.py:172-173 | without rivalry the stat is unchanged; with it a positive stat strictly shrinks, and a non-negative one stays within [0, stat] |
| Adjusters.PassFactorClosedForm | projections_pipeline.py:159-164 | the sequential pass factor equals `1 - 0.07*[windy] - 0.05*[wet]` |
| Adjusters.MissingWeatherIsNeutral | projections_pipeline.py:156-157 | an empty weather dictionary means no wind and no rain: the stat is only clamped |
| Adjusters.PassStatMonotoneInWeather | projections_pipeline.py:159-164 | adding wind or rain never raises a pass stat |
| Adjusters.AdjustersCommute | projections_pipeline.py:194-195 | weather then rivalry equals rivalry then weather |
| Adjusters.AdjustersMonotone | projections_pipeline.py:155-173 | both adjusters are monotone in the stat |
| Projection.ProjectPlayerYards | projections_pipeline.py:178-220 | mean yards are non-negative, zero for a non-positive base, at most 103% of a non-negative base and at most the base for a pass stat; floor yards are 85% of the mean; receptions exist exactly when the target share is positive, with mean 26 times the share and floor 85% of it; mean TDs are 0.3 times one plus the red-zone shares and floor TDs 70% of that |
| Projection.ShrinkBounds | projections_pipeline.py:188-192 | the scenario shrink never raises a non-negative base, keeps at least 0.97 squared of it, and keeps a non-positive base non-positive |
| Projection.ShrinkClosedForm | projections_pipeline.py:186-192 | the guarded sequential shrink equals one multiplication by a factor built from a 1 / 0.97 / 0.985 table: because both probabilities are positive, the guards always pass |
| Projection.Wr1Shrink | projections_pipeline.py:189-190 | a WR1 not flagged RB1 keeps exactly 97% against an elite corner and 98.5% otherwise |
| Projection.MeanYardsClosedForm | projections_pipeline.py:186-197 | mean yards equal the base times the combined shrink, weather and rivalry factor, clamped at zero once |
| Projection.Wr1PassYardsBound | projections_pipeline.py:186-197 | a WR1 pass stat keeps at most 98.5% of any bound on a non-negative base |
| Projection.MeanYardsMonotone | projections_pipeline.py:186-197 | more base yards never give fewer mean yards |
| Projection.YardsAndUsageSeparate | projections_pipeline.py:197-211 | yards do not depend on the usage, and receptions and touchdowns depend on nothing else |
| Projection.WorkedExample | projections_pipeline.py:186-198 | base 100, no weather, a rivalry game, a non-pass stat and no WR1/RB1 flag give 96.0 mean and 81.6 floor yards |
| Team.Need | projections_pipeline.py:244-245 | reading a missing matchup entry is a KeyError naming the key; a present one yields its value |
| Team.Wr1Features | projections_pipeline.py:252-255 | the WR1's features flag it WR1 and not RB1, and flag an elite corner exactly when the matchup says so |
| Team.BaseYards | projections_pipeline.py:257 | the WR1's base yards are the team's passing yards times its target share: for a share in [0, 1] of a non-negative projection they lie between zero and the whole, a zero share gives none and a full share all |
| Team.Wr1Projection | projections_pipeline.py:256-263 | the WR1 is projected as a pass stat with its own features: mean yards are the base times the combined shrink, pass-weather and rivalry factor, clamped at zero, and at most 98.5% of a non-negative base; receptions exist exactly for a positive target share and are 26 times it, so at most 26 for a share up to one; mean TDs are 0.3 times one plus the red-zone shares; floor yards are 85% of mean yards (never above them), floor receptions 85% of the receptions and exist exactly when they do, floor TDs 70% of mean TDs |
| Team.ProjectWr1 | projections_pipeline.py:244-263 | succeeds exactly when both team projections are present and the WR1 has usage; the one entry is keyed by the WR1 and is the WR1 projection from base yards equal to the team's passing yards times the WR1's target share, with the WR1's own usage entry; a failure names the first missing key in reading order |
| Team.BuildWr1Projection | projections_pipeline.py:233-263 | succeeds exactly when the lineup resolves and the rest is ready; the one entry is the resolved WR1, who is on the chart and in the snaps, and holds the WR1 projection from the team's passing yards times the target share of the usage derived (news-nudged) from the snaps; a bad lineup's error is passed through unchanged; once the lineup resolves, a failure is the KeyError of the first missing entry in reading order: team passing yards, team rushing yards, then the WR1's usage |
| Team.DerivedSharesInUnit | projections_pipeline.py:113-138 | with non-negative counts every derived target share lies in [0, 1] |
| Team.Wr1ProjectionBounded | projections_pipeline.py:244-263 | with non-negative counts and team projection, the WR1's mean yards lie in [0, 98.5% of the team's passing yards] and its receptions are at most 26 |
| Engine.Stat | engine.py:147-160 | `p.get(key, 0.0)` used in arithmetic succeeds exactly when the entry is missing or a number, yields that number or 0.0; a string stat fails (Python's `TypeError`, which names no key; the model's `NotANumber` carries the key read) |
| Engine.ApplyTcFloors | engine.py:138-162 | succeeds exactly when every stat the position reads is a number or missing; a failure names a stat the position reads whose entry is a string; the result is the baseline with the position's floor fields, computed from the baseline stats, added |
| Engine.FloorQuarterback | engine.py:147-149 | the QB branch succeeds exactly when passing yards and TDs are numbers or missing, names a string stat on failure, and adds exactly the QB floor fields to the baseline |
| Engine.FloorReceiver | engine.py:151-153 | the WR/TE branch succeeds exactly when receiving yards and receptions are numbers or missing, names a string stat on failure, and adds exactly the WR/TE floor fields to the baseline |
| Engine.FloorRunningBack | engine.py:155-160 | the RB branch succeeds exactly when rushing and receiving yards are numbers or missing, names a string stat on failure, and adds exactly the RB floor fields to the baseline |
| Engine.QuarterbackFloors | engine.py:147-149 | a QB's yards floor is 85% of the passing yards; the TD floor is exactly `max(TDs - 0.4, 0)`, so never negative, and at most the TDs when those are non-negative |
| Engine.ReceiverFloors | engine.py:151-153 | a WR's or TE's receiving-yards and receptions floors are 85% of their baselines |
| Engine.RunningBackFloors | engine.py:155-160 | an RB's total floor equals its rushing floor plus its receiving floor, each 85% of its stat |
| Engine.FloorsKeepBaseline | engine.py:144-162 | the copy keeps every baseline key and value except the floor fields, adds only the floor fields, and equals the input for a position without floors |
| Engine.FloorsIdempotent | engine.py:138-162 | flooring a floored record changes nothing |
| Engine.ProjectTable | engine.py:167-177 | the game loop succeeds exactly when every record has a team and every record playing has numeric stats; it never returns more players than the table |
| Engine.ProjectedFromTable | engine.py:170-174 | every projected entry is a floored record of one of the two teams, under its name |
| Engine.ProjectedComplete | engine.py:170-174 | every record of one of the two teams is projected, floored, under its name |
| Engine.NothingOnTeams | engine.py:171-173 | a table without players of either team projects to nothing |
| Engine.EverythingOnTeams | engine.py:170-174 | a table whose players all play projects entry by entry, in order |
| Engine.DemoTeams | engine.py:16-107 | every record of the demo table belongs to the Cowboys or the Lions |
| Engine.DemoProjectable | engine.py:16-107 | every demo record has a team and numeric stats, so the demo never raises |
| Engine.ProjectGame | engine.py:167-177 | the demo game holds exactly the floored demo players of the two teams |
| Engine.SeasonWeekIgnored | engine.py:167-170 | the season week has no effect |
| Engine.OtherTeamsGetNothing | engine.py:170-173 | two teams other than the Cowboys and the Lions get no players |
| Engine.DemoGame | engine.py:16-107 | Cowboys at Lions projects all nine demo players in table order, each floored |
| Engine.LambFloors | engine.py:37-46 | CeeDee Lamb's record is the third of the demo table, and his floors are 83.3 receiving yards and 6.885 receptions |
| Engine.PrescottFloors | engine.py:17-26 | Dak Prescott's record is the first of the demo table, and his floors are 259.25 passing yards and 2.0 passing TDs |

## Left out

- Data fetching is not modelled: `load_official_depth_chart`, the imported `fetch_*` helpers, `fetch_ref_crew` and `fetch_rotoballer_articles` (an HTTP call). Their results enter as parameters or are unused.
- Only the WR1 slice of `build_team_projections` is modelled. The rest of the function is fetch sequencing, and the other slots are only a comment in the code.
- The Streamlit front end (streamlit_app.py) and the key loader (config_api_keys.py) are not part of this model. They are UI and environment handling.
- IEEE-754 rounding is not modelled. All arithmetic is exact over `real`.
- Snap records always carry all five counts. The KeyError for a snap entry without one of them is not modelled.
- Feature, precipitation and matchup flags are booleans. Python's truthiness of other values (numbers, strings) is not modelled.
- Wind is a real number. A non-numeric wind, which would raise in the comparison, is not modelled.
- Engine record values are strings or numbers. Other Python values, such as booleans or `None`, are not modelled.
- Python dictionaries cannot repeat a key. The ordered-dictionary model does not enforce this. The operations behave as the source does on inputs with distinct names, which is every input the source can receive.
- Engine.ProjectGame: the result is stated as the set of floored demo players. Its order is stated for Cowboys at Lions (`Engine.DemoGame`), and for any table in which every player plays (`Engine.EverythingOnTeams`), but not for an arbitrary pair of teams.
- Usage.DeriveUsageFromSnaps: the shares themselves are stated by the lemmas (`Usage.WeightedShareReference`, `Usage.SharesSumToOne`, `Usage.RedZoneSharesNotRenormalised`), not by the function's own contract.

=== FILE: adjusters.dfy ===
/** Scenario probabilities and the environment adjusters
    (projections_pipeline.py, `scenario_probs`, `apply_weather_factor`,
    `apply_rivalry_factor`). */
module Adjusters {
  import opened Wrappers

  /** A matchup-features dictionary, reduced to the truth of each entry. */
  type Features = map<string, bool>

  /** `features.get(key)` used as a condition: a missing key is false. */
  predicate Flag(f: Features, key: string) {
    key in f && f[key]
  }

  /** The four scenario probabilities returned by `scenario_probs`. */
  datatype Scenarios = Scenarios(normal: real, wr1Bracket: real, rbErased: real, olCollapse: real)

  /** A positive probability, so every `> 0` guard on it holds. */
  predicate Probability(p: real) {
    0.0 < p <= 1.0
  }

  /** `scenario_probs`: flag-gated constants. Each value is a probability, the
      bracket and run-defence values are 0.1 or 0.2, the pass-rush value is
      0.05 or 0.1, and the higher value is chosen exactly when its flag is set. */
  function ScenarioProbs(f: Features): (p: Scenarios)
    ensures Probability(p.normal) && Probability(p.wr1Bracket) && Probability(p.rbErased) && Probability(p.olCollapse)
    ensures p.normal == 0.5
    ensures p.wr1Bracket == 0.1 || p.wr1Bracket == 0.2
    ensures p.rbErased == 0.1 || p.rbErased == 0.2
    ensures p.olCollapse == 0.05 || p.olCollapse == 0.1
    ensures p.wr1Bracket > 0.1 <==> Flag(f, "wr1_vs_elite_cb")
    ensures p.rbErased > 0.1 <==> Flag(f, "elite_run_d")
    ensures p.olCollapse > 0.05 <==> Flag(f, "pass_rush_edge")
  {
    Scenarios(
      0.5,
      if Flag(f, "wr1_vs_elite_cb") then 0.2 else 0.1,
      if Flag(f, "elite_run_d") then 0.2 else 0.1,
      if Flag(f, "pass_rush_edge") then 0.1 else 0.05)
  }

  /** The weather dictionary: both entries may be missing. */
  datatype Weather = Weather(windMph: Option<real>, precip: Option<bool>)

  /** `weather.get("wind_mph", 0) >= 15`. */
  predicate Windy(w: Weather) {
    w.windMph.GetOr(0.0) >= 15.0
  }

  /** `weather.get("precip", False)` used as a condition. */
  predicate Wet(w: Weather) {
    w.precip.GetOr(false)
  }

  /** The factor of `apply_weather_factor`: pass stats lose 0.07 for wind and
      0.05 for precipitation, other stats gain 3% in either. */
  function WeatherFactor(w: Weather, isPass: bool): (f: real)
    ensures isPass ==> 0.88 <= f <= 1.0
    ensures isPass ==> (f == 1.0 <==> !Windy(w) && !Wet(w))
    ensures isPass && Windy(w) && Wet(w) ==> f == 0.88
    ensures !isPass ==> (f == 1.0 || f == 1.03)
    ensures !isPass ==> (f == 1.03 <==> Windy(w) || Wet(w))
  {
    if isPass then
      var afterWind := if Windy(w) then 1.0 - 0.07 else 1.0;
      if Wet(w) then afterWind - 0.05 else afterWind
    else if Windy(w) || Wet(w) then 1.0 * 1.03
    else 1.0
  }

  /** Python's `max(x, 0.0)`. */
  function ClampNonNegative(x: real): (r: real)
    ensures r >= 0.0 && r >= x
    ensures r == x || r == 0.0
  {
    if x >= 0.0 then x else 0.0
  }

  /** `apply_weather_factor`: the scaled stat, clamped at zero. Pass stats never
      grow and lose at most 12%; other stats never shrink and grow at most 3%. */
  function ApplyWeatherFactor(stat: real, w: Weather, isPass: bool): (r: real)
    ensures r >= 0.0
    ensures stat <= 0.0 ==> r == 0.0
    ensures stat >= 0.0 && isPass ==> 0.88 * stat <= r <= stat
    ensures stat >= 0.0 && !isPass ==> stat <= r <= 1.03 * stat
    ensures !Windy(w) && !Wet(w) ==> r == ClampNonNegative(stat)
  {
    ClampNonNegative(stat * WeatherFactor(w, isPass))
  }

  /** `apply_rivalry_factor`: a rivalry game takes 4% off, otherwise the stat is unchanged. */
  function ApplyRivalryFactor(stat: real, rivalry: bool): (r: real)
    ensures !rivalry ==> r == stat
    ensures stat >= 0.0 ==> 0.0 <= r <= stat
    ensures stat > 0.0 ==> (r < stat <==> rivalry)
  {
    if rivalry then stat * 0.96 else stat
  }

  // ---------- properties ----------

  /** The pass-stat factor in closed form: `1 - 0.07*[windy] - 0.05*[wet]`. */
  lemma PassFactorClosedForm(w: Weather)
    ensures WeatherFactor(w, true) ==
      1.0 - 0.07 * (if Windy(w) then 1.0 else 0.0) - 0.05 * (if Wet(w) then 1.0 else 0.0)
  {
  }

  /** A missing weather dictionary means no wind and no rain: the stat only gets clamped. */
  lemma MissingWeatherIsNeutral(stat: real, isPass: bool)
    ensures ApplyWeatherFactor(stat, Weather(None, None), isPass) == ClampNonNegative(stat)
  {
  }

  /** Worse weather never raises a pass stat: adding wind or precipitation can only lower it. */
  lemma PassStatMonotoneInWeather(stat: real, calm: Weather, rough: Weather)
    requires Windy(calm) ==> Windy(rough)
    requires Wet(calm) ==> Wet(rough)
    ensures ApplyWeatherFactor(stat, rough, true) <= ApplyWeatherFactor(stat, calm, true)
  {
    if stat >= 0.0 {
      ScaleMonotone(stat, WeatherFactor(rough, true), WeatherFactor(calm, true));
    }
  }

  lemma ScaleMonotone(x: real, a: real, b: real)
    requires x >= 0.0 && a <= b
    ensures x * a <= x * b
  {
  }

  /** Both adjusters only scale by a positive factor, so their order does not
      matter: rivalry after weather (the source's order) equals weather after rivalry. */
  lemma AdjustersCommute(stat: real, w: Weather, isPass: bool, rivalry: bool)
    ensures ApplyRivalryFactor(ApplyWeatherFactor(stat, w, isPass), rivalry) ==
      ApplyWeatherFactor(ApplyRivalryFactor(stat, rivalry), w, isPass)
  {
    var f := WeatherFactor(w, isPass);
    if rivalry {
      assert (stat * 0.96) * f == (stat * f) * 0.96;
      if stat * f < 0.0 {
        assert (stat * 0.96) * f < 0.0;
      }
    }
  }

  /** Both adjusters are monotone in the stat. */
  lemma AdjustersMonotone(a: real, b: real, w: Weather, isPass: bool, rivalry: bool)
    requires a <= b
    ensures ApplyWeatherFactor(a, w, isPass) <= ApplyWeatherFactor(b, w, isPass)
    ensures ApplyRivalryFactor(a, rivalry) <= ApplyRivalryFactor(b, rivalry)
  {
    var f := WeatherFactor(w, isPass);
    assert a * f <= b * f by {
      ScaleMonotone(b - a, 0.0, f);
    }
  }
}

=== FILE: dicts.dfy ===
/** Python dictionaries that are iterated keep their insertion order; such a
    dictionary is modelled here as the sequence of its entries. */
module Dicts {
  import opened Wrappers

  /** An insertion-ordered dictionary with string keys. */
  type Dict<V> = seq<(string, V)>

  /** The keys, in insertion order. */
  function Keys<V>(d: Dict<V>): (ks: seq<string>)
    ensures |ks| == |d|
    ensures forall i :: 0 <= i < |d| ==> ks[i] == d[i].0
  {
    if |d| == 0 then [] else [d[0].0] + Keys(d[1..])
  }

  /** A real Python dictionary never holds the same key twice. */
  predicate DistinctKeys<V>(d: Dict<V>) {
    forall i, j :: 0 <= i < j < |d| ==> d[i].0 != d[j].0
  }

  /** `d.get(k)`: the value stored under `k`, if any. */
  function Lookup<V>(d: Dict<V>, k: string): (r: Option<V>)
    ensures r.Some? <==> k in Keys(d)
    ensures r.Some? ==> (k, r.value) in d
  {
    if |d| == 0 then None
    else if d[0].0 == k then Some(d[0].1)
    else Lookup(d[1..], k)
  }

  /** In a dictionary without repeated keys, each entry is what its key looks up. */
  lemma {:induction false} LookupEntry<V>(d: Dict<V>, i: int)
    requires DistinctKeys(d)
    requires 0 <= i < |d|
    ensures Lookup(d, d[i].0) == Some(d[i].1)
    decreases |d|
  {
    if i > 0 {
      assert d[0].0 != d[i].0;
      assert d[1..][i - 1] == d[i];
      LookupEntry(d[1..], i - 1);
    }
  }
}

=== FILE: engine.dfy ===
/** The demo engine (engine.py): triple-conservative floors added to a copy of
    a player's baseline record, and the demo game built from the constant
    baseline table. */
module Engine {
  import opened Wrappers
  import opened Dicts
  import opened Adjusters

  /** A value of a baseline record: the records hold strings and floats. */
  datatype Value = Text(s: string) | Num(x: real)

  /** A player's baseline record. */
  type Record = map<string, Value>

  /** KeyError on a missing key; TypeError on arithmetic with a string. */
  datatype EngineError = MissingKey(key: string) | NotANumber(key: string)

  /** `player.get("position", "") == code`. */
  predicate IsPosition(p: Record, code: string) {
    if "position" in p then p["position"] == Text(code) else code == ""
  }

  /** The number `p.get(key, 0.0)` yields when it is a number. */
  function NumOr0(p: Record, key: string): real {
    if key in p && p[key].Num? then p[key].x else 0.0
  }

  /** `p.get(key, 0.0)` used in arithmetic: a missing key is 0.0, a string raises. */
  function Stat(p: Record, key: string): (r: Result<real, EngineError>)
    ensures r.Success? <==> key !in p || p[key].Num?
    ensures r.Success? ==> r.value == NumOr0(p, key)
    ensures r.Failure? ==> r.error == NotANumber(key)
  {
    if key !in p then Success(0.0)
    else match p[key]
      case Num(x) => Success(x)
      case Text(_) => Failure(NotANumber(key))
  }

  /** The stats a position's floors read. */
  function StatKeys(p: Record): set<string> {
    if IsPosition(p, "QB") then {"passing_yards", "passing_tds"}
    else if IsPosition(p, "WR") || IsPosition(p, "TE") then {"receiving_yards", "receptions"}
    else if IsPosition(p, "RB") then {"rushing_yards", "receiving_yards"}
    else {}
  }

  /** The floor fields a position gets. */
  function FloorKeys(p: Record): set<string> {
    if IsPosition(p, "QB") then {"tc_floor_passing_yards", "tc_floor_passing_tds"}
    else if IsPosition(p, "WR") || IsPosition(p, "TE") then {"tc_floor_receiving_yards", "tc_floor_receptions"}
    else if IsPosition(p, "RB") then {"tc_floor_rushing_yards", "tc_floor_receiving_yards", "tc_floor_total_yards"}
    else {}
  }

  /** Reference: the floor fields of a position, computed at once from the
      baseline stats (missing stats as zero). */
  function FloorFields(p: Record): map<string, Value> {
    if IsPosition(p, "QB") then
      map["tc_floor_passing_yards" := Num(NumOr0(p, "passing_yards") * 0.85),
          "tc_floor_passing_tds" := Num(ClampNonNegative(NumOr0(p, "passing_tds") - 0.4))]
    else if IsPosition(p, "WR") || IsPosition(p, "TE") then
      map["tc_floor_receiving_yards" := Num(NumOr0(p, "receiving_yards") * 0.85),
          "tc_floor_receptions" := Num(NumOr0(p, "receptions") * 0.85)]
    else if IsPosition(p, "RB") then
      map["tc_floor_rushing_yards" := Num(NumOr0(p, "rushing_yards") * 0.85),
          "tc_floor_receiving_yards" := Num(NumOr0(p, "receiving_yards") * 0.85),
          "tc_floor_total_yards" := Num((NumOr0(p, "rushing_yards") + NumOr0(p, "receiving_yards")) * 0.85)]
    else map[]
  }

  /** Every stat the floors read is a number or missing. */
  predicate NumericStats(p: Record) {
    forall k :: k in StatKeys(p) ==> k !in p || p[k].Num?
  }

  /** `apply_tc_floors`: a copy of the record with the position's floor fields
      set, the stats read in source order (a string stat raises). It agrees
      with the one-shot reference `player + FloorFields(player)`. */
  function ApplyTcFloors(player: Record): (r: Result<Record, EngineError>)
    ensures r.Success? <==> NumericStats(player)
    ensures r.Failure? ==> r.error.NotANumber? && r.error.key in StatKeys(player)
    ensures r.Failure? ==> r.error.key in player && player[r.error.key].Text?
    ensures r.Success? ==> r.value == player + FloorFields(player)
  {
    if IsPosition(player, "QB") then FloorQuarterback(player)
    else if IsPosition(player, "WR") || IsPosition(player, "TE") then FloorReceiver(player)
    else if IsPosition(player, "RB") then FloorRunningBack(player)
    else Success(player)
  }

  /** The quarterback branch: passing yards, then passing TDs. */
  function FloorQuarterback(p: Record): (r: Result<Record, EngineError>)
    requires IsPosition(p, "QB")
    ensures r.Success? <==> NumericStats(p)
    ensures r.Failure? ==> r.error.NotANumber? && r.error.key in StatKeys(p)
    ensures r.Failure? ==> r.error.key in p && p[r.error.key].Text?
    ensures r.Success? ==> r.value == p + FloorFields(p)
  {
    var yards :- Stat(p, "passing_yards");
    var p1 := p["tc_floor_passing_yards" := Num(yards * 0.85)];
    var tds :- Stat(p1, "passing_tds");
    Success(p1["tc_floor_passing_tds" := Num(ClampNonNegative(tds - 0.4))])
  }

  /** The receiver and tight-end branch: receiving yards, then receptions. */
  function FloorReceiver(p: Record): (r: Result<Record, EngineError>)
    requires !IsPosition(p, "QB") && (IsPosition(p, "WR") || IsPosition(p, "TE"))
    ensures r.Success? <==> NumericStats(p)
    ensures r.Failure? ==> r.error.NotANumber? && r.error.key in StatKeys(p)
    ensures r.Failure? ==> r.error.key in p && p[r.error.key].Text?
    ensures r.Success? ==> r.value == p + FloorFields(p)
  {
    var yards :- Stat(p, "receiving_yards");
    var p1 := p["tc_floor_receiving_yards" := Num(yards * 0.85)];
    var recs :- Stat(p1, "receptions");
    Success(p1["tc_floor_receptions" := Num(recs * 0.85)])
  }

  /** The running-back branch: rushing yards, receiving yards, then their total. */
  function FloorRunningBack(p: Record): (r: Result<Record, EngineError>)
    requires !IsPosition(p, "QB") && !IsPosition(p, "WR") && !IsPosition(p, "TE") && IsPosition(p, "RB")
    ensures r.Success? <==> NumericStats(p)
    ensures r.Failure? ==> r.error.NotANumber? && r.error.key in StatKeys(p)
    ensures r.Failure? ==> r.error.key in p && p[r.error.key].Text?
    ensures r.Success? ==> r.value == p + FloorFields(p)
  {
    var rush :- Stat(p, "rushing_yards");
    var p1 := p["tc_floor_rushing_yards" := Num(rush * 0.85)];
    var rec :- Stat(p1, "receiving_yards");
    var p2 := p1["tc_floor_receiving_yards" := Num(rec * 0.85)];
    // the total re-reads both stats, which the two floors above left unchanged
    Success(p2["tc_floor_total_yards" := Num((rush + rec) * 0.85)])
  }

  // ---------- floor properties ----------

  /** A quarterback's floors: 85% of the passing yards, and the passing TDs less
      0.4 but never below zero, so never above the TDs when those are non-negative. */
  lemma QuarterbackFloors(p: Record)
    requires IsPosition(p, "QB") && NumericStats(p)
    ensures
      var r := ApplyTcFloors(p).value;
      && r["tc_floor_passing_yards"] == Num(0.85 * NumOr0(p, "passing_yards"))
      && r["tc_floor_passing_tds"] == Num(ClampNonNegative(NumOr0(p, "passing_tds") - 0.4))
      && r["tc_floor_passing_tds"].x >= 0.0
      && r["tc_floor_passing_tds"].x >= NumOr0(p, "passing_tds") - 0.4
      && (NumOr0(p, "passing_tds") >= 0.0 ==> r["tc_floor_passing_tds"].x <= NumOr0(p, "passing_tds"))
  {
  }

  /** A receiver's or tight end's floors: 85% of the receiving yards and receptions. */
  lemma ReceiverFloors(p: Record)
    requires (IsPosition(p, "WR") || IsPosition(p, "TE")) && NumericStats(p)
    ensures
      var r := ApplyTcFloors(p).value;
      && r["tc_floor_receiving_yards"] == Num(0.85 * NumOr0(p, "receiving_yards"))
      && r["tc_floor_receptions"] == Num(0.85 * NumOr0(p, "receptions"))
  {
  }

  /** A running back's floors: the total floor is the sum of the rushing and
      receiving floors, each 85% of its stat. */
  lemma RunningBackFloors(p: Record)
    requires IsPosition(p, "RB") && NumericStats(p)
    ensures
      var r := ApplyTcFloors(p).value;
      && r["tc_floor_rushing_yards"] == Num(0.85 * NumOr0(p, "rushing_yards"))
      && r["tc_floor_receiving_yards"] == Num(0.85 * NumOr0(p, "receiving_yards"))
      && r["tc_floor_total_yards"].Num?
      && r["tc_floor_total_yards"].x == r["tc_floor_rushing_yards"].x + r["tc_floor_receiving_yards"].x
  {
  }

  /** `apply_tc_floors` works on a copy: every key of the baseline is kept, with
      its value, unless it is one of the position's floor fields; the only new
      keys are those floor fields; a position without floors is returned as is. */
  lemma FloorsKeepBaseline(p: Record)
    requires NumericStats(p)
    ensures ApplyTcFloors(p).value.Keys == p.Keys + FloorKeys(p)
    ensures forall k :: k in p && k !in FloorKeys(p) ==> ApplyTcFloors(p).value[k] == p[k]
    ensures FloorKeys(p) == {} ==> ApplyTcFloors(p) == Success(p)
  {
    assert FloorFields(p).Keys == FloorKeys(p);
    if FloorKeys(p) == {} {
      assert p + FloorFields(p) == p;
    }
  }

  /** Flooring twice changes nothing more: the floors are read from the
      baseline stats, which flooring leaves untouched. */
  lemma FloorsIdempotent(p: Record)
    requires NumericStats(p)
    ensures ApplyTcFloors(p).Success?
    ensures ApplyTcFloors(ApplyTcFloors(p).value) == ApplyTcFloors(p)
  {
    var r := ApplyTcFloors(p).value;
    FloorFieldsStable(p);
    StatsKept(p, FloorFields(p));
    assert r + FloorFields(p) == r;
  }

  /** The floor fields of a floored record are those of the baseline. */
  lemma FloorFieldsStable(p: Record)
    ensures FloorFields(p + FloorFields(p)) == FloorFields(p)
  {
    var extra := FloorFields(p);
    UpdateKeeps(p, extra, "position");
    if IsPosition(p, "QB") {
      UpdateKeeps(p, extra, "passing_yards");
      UpdateKeeps(p, extra, "passing_tds");
    } else if IsPosition(p, "WR") || IsPosition(p, "TE") {
      UpdateKeeps(p, extra, "receiving_yards");
      UpdateKeeps(p, extra, "receptions");
    } else if IsPosition(p, "RB") {
      UpdateKeeps(p, extra, "rushing_yards");
      UpdateKeeps(p, extra, "receiving_yards");
    }
  }

  /** Adding entries under no stat key keeps the stats numeric. */
  lemma StatsKept(p: Record, extra: map<string, Value>)
    requires "position" !in extra
    requires forall k :: k in StatKeys(p) ==> k !in extra
    ensures NumericStats(p) ==> NumericStats(p + extra)
  {
    UpdateKeeps(p, extra, "position");
    assert StatKeys(p + extra) == StatKeys(p);
  }

  /** Adding entries under other keys leaves a key's entry and its number alone. */
  lemma UpdateKeeps(p: Record, extra: map<string, Value>, k: string)
    requires k !in extra
    ensures (k in p + extra) == (k in p)
    ensures k in p ==> (p + extra)[k] == p[k]
    ensures NumOr0(p + extra, k) == NumOr0(p, k)
    ensures k == "position" ==> forall c :: IsPosition(p + extra, c) == IsPosition(p, c)
  {
  }

  // ---------- the demo game ----------

  /** `base["team"] in (home_team, away_team)`. */
  predicate OnTeams(base: Record, home: string, away: string) {
    "team" in base && (base["team"] == Text(home) || base["team"] == Text(away))
  }

  /** Every record has a team, and every record playing in the game has numeric stats. */
  predicate Projectable(table: Dict<Record>, home: string, away: string) {
    forall e :: e in table ==> "team" in e.1 && (OnTeams(e.1, home, away) ==> NumericStats(e.1))
  }

  /** The loop of `project_game` over a baseline table: records of other teams
      are skipped, the rest are floored, in table order; a record without a
      team is a KeyError and a string stat a TypeError. */
  function ProjectTable(table: Dict<Record>, home: string, away: string): (r: Result<Dict<Record>, EngineError>)
    ensures r.Success? <==> Projectable(table, home, away)
    ensures r.Success? ==> |r.value| <= |table|
    ensures r.Failure? ==> r.error == MissingKey("team") || r.error.NotANumber?
    decreases |table|
  {
    if |table| == 0 then Success([])
    else
      var name, base := table[0].0, table[0].1;
      assert forall e :: e in table <==> e == table[0] || e in table[1..];
      if "team" !in base then Failure(MissingKey("team"))
      else if !OnTeams(base, home, away) then
        ProjectTable(table[1..], home, away)
      else
        var floored :- ApplyTcFloors(base);
        var rest :- ProjectTable(table[1..], home, away);
        Success([(name, floored)] + rest)
  }

  /** Every projected entry is a floored on-team record of the table, under its name. */
  lemma {:induction false} ProjectedFromTable(table: Dict<Record>, home: string, away: string)
    requires Projectable(table, home, away)
    ensures forall e :: e in ProjectTable(table, home, away).value ==>
      exists b :: (e.0, b) in table && OnTeams(b, home, away) && ApplyTcFloors(b) == Success(e.1)
    decreases |table|
  {
    if |table| > 0 {
      assert forall e :: e in table <==> e == table[0] || e in table[1..];
      ProjectedFromTable(table[1..], home, away);
    }
  }

  /** Every on-team record of the table is projected, floored, under its name. */
  lemma {:induction false} ProjectedComplete(table: Dict<Record>, home: string, away: string)
    requires Projectable(table, home, away)
    ensures forall e :: e in table && OnTeams(e.1, home, away) ==>
      ApplyTcFloors(e.1).Success? && (e.0, ApplyTcFloors(e.1).value) in ProjectTable(table, home, away).value
    decreases |table|
  {
    if |table| > 0 {
      assert forall e :: e in table <==> e == table[0] || e in table[1..];
      ProjectedComplete(table[1..], home, away);
    }
  }

  /** A table without a record of either team projects to nothing. */
  lemma {:induction false} NothingOnTeams(table: Dict<Record>, home: string, away: string)
    requires forall e :: e in table ==> "team" in e.1 && !OnTeams(e.1, home, away)
    ensures ProjectTable(table, home, away) == Success([])
    decreases |table|
  {
    if |table| > 0 {
      assert forall e :: e in table[1..] ==> e in table;
      NothingOnTeams(table[1..], home, away);
    }
  }

  /** A table of records all playing in the game projects entry by entry, in order. */
  lemma {:induction false} EverythingOnTeams(table: Dict<Record>, home: string, away: string)
    requires forall e :: e in table ==> OnTeams(e.1, home, away) && NumericStats(e.1)
    ensures ProjectTable(table, home, away).Success?
    ensures |ProjectTable(table, home, away).value| == |table|
    ensures forall i :: 0 <= i < |table| ==>
      ProjectTable(table, home, away).value[i] == (table[i].0, ApplyTcFloors(table[i].1).value)
    decreases |table|
  {
    if |table| > 0 {
      assert forall e :: e in table[1..] ==> e in table;
      assert table[0] in table;
      EverythingOnTeams(table[1..], home, away);
      var rest := ProjectTable(table[1..], home, away).value;
      assert ProjectTable(table, home, away).value == [(table[0].0, ApplyTcFloors(table[0].1).value)] + rest;
    }
  }

  // ---------- the demo table ----------

  /** A demo baseline record: every entry but the team and position is a number,
      and the hit probability is 0.60 throughout. */
  function Baseline(team: string, position: string, passYards: real, passTds: real,
                    rushYards: real, recYards: real, receptions: real): (r: Record)
    ensures "team" in r && r["team"] == Text(team)
    ensures "position" in r && r["position"] == Text(position)
    ensures NumericBaseline(r)
  {
    map["team" := Text(team), "position" := Text(position),
        "passing_yards" := Num(passYards), "passing_tds" := Num(passTds),
        "rushing_yards" := Num(rushYards), "receiving_yards" := Num(recYards),
        "receptions" := Num(receptions), "hit_prob" := Num(0.60)]
  }

  /** `DEMO_BASELINES`: Cowboys at Lions, in the source's order. */
  const DemoBaselines: Dict<Record> := [
    ("Dak Prescott", Baseline("Cowboys", "QB", 305.0, 2.4, 15.0, 0.0, 0.0)),
    ("Javonte Williams", Baseline("Cowboys", "RB", 0.0, 0.0, 85.0, 18.0, 2.0)),
    ("CeeDee Lamb", Baseline("Cowboys", "WR", 0.0, 0.0, 5.0, 98.0, 8.1)),
    ("George Pickens", Baseline("Cowboys", "WR", 0.0, 0.0, 0.0, 95.0, 7.0)),
    ("Jake Ferguson", Baseline("Cowboys", "TE", 0.0, 0.0, 0.0, 47.0, 4.8)),
    ("Jared Goff", Baseline("Lions", "QB", 278.0, 2.0, 5.0, 0.0, 0.0)),
    ("Jahmyr Gibbs", Baseline("Lions", "RB", 0.0, 0.0, 75.0, 35.0, 4.0)),
    ("David Montgomery", Baseline("Lions", "RB", 0.0, 0.0, 52.0, 6.0, 1.0)),
    ("Jameson Williams", Baseline("Lions", "WR", 0.0, 0.0, 0.0, 62.0, 3.5))
  ]

  /** Every demo record has a team and only numeric stats, so the demo table
      is projectable for any pair of teams. */
  lemma DemoProjectable(home: string, away: string)
    ensures Projectable(DemoBaselines, home, away)
  {
    DemoNumeric();
    forall e | e in DemoBaselines
      ensures "team" in e.1 && NumericStats(e.1)
    {
      NumericBesidesTeamAndPosition(e.1);
    }
  }

  /** A record whose entries other than team and position are all numbers. */
  predicate NumericBaseline(r: Record) {
    "team" in r && forall k :: k in r && k != "team" && k != "position" ==> r[k].Num?
  }

  lemma DemoNumeric()
    ensures forall e :: e in DemoBaselines ==> NumericBaseline(e.1)
  {
    DemoNumericAt();
    forall e | e in DemoBaselines
      ensures NumericBaseline(e.1)
    {
      var i :| 0 <= i < |DemoBaselines| && DemoBaselines[i] == e;
    }
  }

  lemma DemoNumericAt()
    ensures forall i :: 0 <= i < |DemoBaselines| ==> NumericBaseline(DemoBaselines[i].1)
  {
  }

  /** No stat a floor reads is the team or the position. */
  lemma NumericBesidesTeamAndPosition(r: Record)
    requires NumericBaseline(r)
    ensures NumericStats(r)
  {
    assert "team" !in StatKeys(r) && "position" !in StatKeys(r);
  }

  /** `project_game`: the demo players of the two named teams with their floors
      added. The demo table never raises, every projected entry is a floored
      demo record of one of the two teams, and every such record is projected. */
  function ProjectGame(seasonWeek: string, home: string, away: string): (r: Dict<Record>)
    ensures forall e :: e in r ==>
      exists b :: (e.0, b) in DemoBaselines && OnTeams(b, home, away) && ApplyTcFloors(b) == Success(e.1)
    ensures forall e :: e in DemoBaselines && OnTeams(e.1, home, away) ==>
      ApplyTcFloors(e.1).Success? && (e.0, ApplyTcFloors(e.1).value) in r
  {
    DemoProjectable(home, away);
    ProjectedFromTable(DemoBaselines, home, away);
    ProjectedComplete(DemoBaselines, home, away);
    ProjectTable(DemoBaselines, home, away).value
  }

  /** The season week is ignored. */
  lemma SeasonWeekIgnored(w1: string, w2: string, home: string, away: string)
    ensures ProjectGame(w1, home, away) == ProjectGame(w2, home, away)
  {
  }

  /** Every demo record belongs to the Cowboys or the Lions. */
  lemma DemoTeams()
    ensures forall e :: e in DemoBaselines ==> OnTeams(e.1, "Cowboys", "Lions")
  {
    DemoTeamsAt();
    forall e | e in DemoBaselines
      ensures OnTeams(e.1, "Cowboys", "Lions")
    {
      var i :| 0 <= i < |DemoBaselines| && DemoBaselines[i] == e;
    }
  }

  /** The first five demo records are Cowboys, the last four Lions. */
  lemma DemoTeamsAt()
    ensures forall i :: 0 <= i < |DemoBaselines| ==> OnTeams(DemoBaselines[i].1, "Cowboys", "Lions")
  {
    forall i | 0 <= i < |DemoBaselines|
      ensures OnTeams(DemoBaselines[i].1, "Cowboys", "Lions")
    {
      if i < 5 {
        assert DemoBaselines[i].1["team"] == Text("Cowboys");
      } else {
        assert DemoBaselines[i].1["team"] == Text("Lions");
      }
    }
  }

  /** Teams not in the demo get no players. */
  lemma OtherTeamsGetNothing(seasonWeek: string, home: string, away: string)
    requires home != "Cowboys" && home != "Lions" && away != "Cowboys" && away != "Lions"
    ensures ProjectGame(seasonWeek, home, away) == []
  {
    DemoOffTeams(home, away);
    NothingOnTeams(DemoBaselines, home, away);
  }

  lemma DemoOffTeams(home: string, away: string)
    requires home != "Cowboys" && home != "Lions" && away != "Cowboys" && away != "Lions"
    ensures forall e :: e in DemoBaselines ==> "team" in e.1 && !OnTeams(e.1, home, away)
  {
    DemoTeams();
  }

  /** The demo game projects all nine players, in table order, each floored. */
  lemma DemoGame(seasonWeek: string)
    ensures var r := ProjectGame(seasonWeek, "Lions", "Cowboys");
      && |r| == |DemoBaselines|
      && forall i :: 0 <= i < |DemoBaselines| ==>
           r[i].0 == DemoBaselines[i].0 && ApplyTcFloors(DemoBaselines[i].1) == Success(r[i].1)
  {
    DemoAllPlaying();
    EverythingOnTeams(DemoBaselines, "Lions", "Cowboys");
  }

  /** Every demo record plays in Cowboys at Lions and has numeric stats. */
  lemma DemoAllPlaying()
    ensures forall e :: e in DemoBaselines ==> OnTeams(e.1, "Lions", "Cowboys") && NumericStats(e.1)
  {
    DemoTeams();
    DemoProjectable("Lions", "Cowboys");
  }

  /** CeeDee Lamb's floors are 83.3 receiving yards and 6.885 receptions. */
  lemma LambFloors(lamb: Record)
    requires lamb == Baseline("Cowboys", "WR", 0.0, 0.0, 5.0, 98.0, 8.1)
    ensures DemoBaselines[2] == ("CeeDee Lamb", lamb)
    ensures var r := ApplyTcFloors(lamb);
      r.Success? && r.value["tc_floor_receiving_yards"] == Num(83.3) && r.value["tc_floor_receptions"] == Num(6.885)
  {
    assert IsPosition(lamb, "WR");
    NumericBesidesTeamAndPosition(lamb);
    ReceiverFloors(lamb);
  }

  /** Dak Prescott's passing-TD floor is 2.0 and his passing-yards floor 259.25. */
  lemma PrescottFloors(dak: Record)
    requires dak == Baseline("Cowboys", "QB", 305.0, 2.4, 15.0, 0.0, 0.0)
    ensures DemoBaselines[0] == ("Dak Prescott", dak)
    ensures var r := ApplyTcFloors(dak);
      r.Success? && r.value["tc_floor_passing_tds"] == Num(2.0) && r.value["tc_floor_passing_yards"] == Num(259.25)
  {
    assert IsPosition(dak, "QB");
    NumericBesidesTeamAndPosition(dak);
    QuarterbackFloors(dak);
  }
}

=== FILE: projection.dfy ===
/** The per-player projection (projections_pipeline.py, `project_player_yards`):
    scenario shrinkage, then weather, then rivalry, with floors at fixed
    fractions of the means. */
module Projection {
  import opened Wrappers
  import opened Usage
  import opened Adjusters

  /** `PlayerProjection`: receptions are absent for players without targets. */
  datatype PlayerProjection = PlayerProjection(
    meanYards: real, floorYards: real,
    meanRecs: Option<real>, floorRecs: Option<real>,
    meanTds: real, floorTds: real)

  /** The scenario shrinkage: a flagged WR1 loses `0.15 * wr1_bracket` of its
      yards, a flagged RB1 `0.15 * rb_erased`, each only under its `> 0` guard. */
  function ScenarioShrink(base: real, f: Features): real {
    var p := ScenarioProbs(f);
    var afterWr1 := if Flag(f, "is_wr1") && p.wr1Bracket > 0.0 then base * (1.0 - 0.15 * p.wr1Bracket) else base;
    if Flag(f, "is_rb1") && p.rbErased > 0.0 then afterWr1 * (1.0 - 0.15 * p.rbErased) else afterWr1
  }

  /** Reference table of one shrink: 0.97 against the stronger defence, 0.985
      otherwise, and no shrink for a player the flag does not name. */
  function ShrinkTable(named: bool, strongDefence: bool): real {
    if !named then 1.0 else if strongDefence then 0.97 else 0.985
  }

  /** The whole shrinkage as one factor, built from the reference table. */
  function ShrinkFactor(f: Features): real {
    ShrinkTable(Flag(f, "is_wr1"), Flag(f, "wr1_vs_elite_cb")) * ShrinkTable(Flag(f, "is_rb1"), Flag(f, "elite_run_d"))
  }

  /** The rivalry multiplier as a factor. */
  function RivalryFactor(rivalry: bool): real {
    if rivalry then 0.96 else 1.0
  }

  /** Shrink, weather and rivalry combined into one factor. */
  function CombinedFactor(f: Features, w: Weather, rivalry: bool, isPass: bool): real {
    ShrinkFactor(f) * WeatherFactor(w, isPass) * RivalryFactor(rivalry)
  }

  /** `40 * target_share * 0.65`: forty team attempts and a 65% catch rate. */
  function EstimatedReceptions(targetShare: real): real {
    40.0 * targetShare * 0.65
  }

  /** The yards chain of `project_player_yards`: shrink, then weather, then rivalry. */
  function AdjustedYards(base: real, f: Features, w: Weather, rivalry: bool, isPass: bool): real {
    ApplyRivalryFactor(ApplyWeatherFactor(ScenarioShrink(base, f), w, isPass), rivalry)
  }

  /** `project_player_yards`. */
  function ProjectPlayerYards(base: real, usage: PlayerUsage, f: Features, w: Weather, rivalry: bool, isPass: bool): (p: PlayerProjection)
    ensures p.meanYards >= 0.0
    ensures p.floorYards == 0.85 * p.meanYards && p.floorYards <= p.meanYards
    ensures base <= 0.0 ==> p.meanYards == 0.0
    ensures base >= 0.0 ==> p.meanYards <= 1.03 * base
    ensures base >= 0.0 && isPass ==> p.meanYards <= base
    ensures p.meanRecs.Some? <==> usage.targetShare > 0.0
    ensures p.floorRecs.Some? <==> usage.targetShare > 0.0
    ensures p.meanRecs.Some? ==> p.meanRecs.value == 26.0 * usage.targetShare > 0.0
    ensures p.meanRecs.Some? ==> p.floorRecs.value == 0.85 * p.meanRecs.value
    ensures p.meanTds == 0.3 + 0.3 * (usage.rzRushShare + usage.rzTargetShare)
    ensures p.floorTds == 0.7 * p.meanTds
    ensures usage.rzRushShare >= 0.0 && usage.rzTargetShare >= 0.0 ==> 0.3 <= p.meanTds && p.floorTds <= p.meanTds
  {
    ShrinkBounds(base, f);
    var adj := AdjustedYards(base, f, w, rivalry, isPass);
    var meanRecs := if usage.targetShare > 0.0 then Some(EstimatedReceptions(usage.targetShare)) else None;
    var floorRecs := if usage.targetShare > 0.0 then Some(EstimatedReceptions(usage.targetShare) * 0.85) else None;
    var meanTds := 0.3 * (1.0 + (usage.rzRushShare + usage.rzTargetShare));
    PlayerProjection(adj, adj * 0.85, meanRecs, floorRecs, meanTds, meanTds * 0.7)
  }

  // ---------- properties ----------

  /** The shrink never raises a non-negative stat, never lowers it by more than
      the two worst shrinks together, and keeps a non-positive one non-positive. */
  lemma ShrinkBounds(base: real, f: Features)
    ensures base >= 0.0 ==> 0.97 * 0.97 * base <= ScenarioShrink(base, f) <= base
    ensures base <= 0.0 ==> ScenarioShrink(base, f) <= 0.0
  {
  }

  /** The sequential shrink equals one multiplication by the table-built factor. */
  lemma ShrinkClosedForm(base: real, f: Features)
    ensures ScenarioShrink(base, f) == base * ShrinkFactor(f)
  {
    var a := ShrinkTable(Flag(f, "is_wr1"), Flag(f, "wr1_vs_elite_cb"));
    var b := ShrinkTable(Flag(f, "is_rb1"), Flag(f, "elite_run_d"));
    assert ScenarioShrink(base, f) == (base * a) * b;
    Associate(base, a, b);
  }

  lemma Associate(x: real, a: real, b: real)
    ensures (x * a) * b == x * (a * b)
  {
  }

  /** A WR1 that is not also flagged RB1 is shrunk by exactly 0.97 when facing
      an elite corner and by 0.985 otherwise. */
  lemma Wr1Shrink(base: real, f: Features)
    requires Flag(f, "is_wr1") && !Flag(f, "is_rb1")
    ensures ScenarioShrink(base, f) == base * (if Flag(f, "wr1_vs_elite_cb") then 0.97 else 0.985)
  {
  }

  /** Mean yards in closed form: the base times the shrink, weather and rivalry
      factors, clamped at zero once. */
  lemma MeanYardsClosedForm(base: real, usage: PlayerUsage, f: Features, w: Weather, rivalry: bool, isPass: bool)
    ensures ProjectPlayerYards(base, usage, f, w, rivalry, isPass).meanYards ==
      ClampNonNegative(base * CombinedFactor(f, w, rivalry, isPass))
  {
    AdjustedClosedForm(base, f, w, rivalry, isPass);
  }

  lemma AdjustedClosedForm(base: real, f: Features, w: Weather, rivalry: bool, isPass: bool)
    ensures AdjustedYards(base, f, w, rivalry, isPass) == ClampNonNegative(base * CombinedFactor(f, w, rivalry, isPass))
  {
    FactorsCombine(base, f, w, rivalry, isPass);
    RivalryAfterClamp(ScenarioShrink(base, f) * WeatherFactor(w, isPass), rivalry);
  }

  lemma FactorsCombine(base: real, f: Features, w: Weather, rivalry: bool, isPass: bool)
    ensures ScenarioShrink(base, f) * WeatherFactor(w, isPass) * RivalryFactor(rivalry) ==
      base * CombinedFactor(f, w, rivalry, isPass)
  {
    ShrinkClosedForm(base, f);
    Associate3(base, ShrinkFactor(f), WeatherFactor(w, isPass), RivalryFactor(rivalry));
  }

  lemma Associate3(x: real, a: real, b: real, c: real)
    ensures ((x * a) * b) * c == x * (a * b * c)
  {
    Associate(x, a, b);
    Associate(x, a * b, c);
  }

  lemma RivalryAfterClamp(x: real, rivalry: bool)
    ensures ApplyRivalryFactor(ClampNonNegative(x), rivalry) == ClampNonNegative(x * RivalryFactor(rivalry))
  {
  }

  /** A pass stat for a WR1 (not also RB1) keeps at most 98.5% of any bound on its base. */
  lemma Wr1PassYardsBound(base: real, bound: real, usage: PlayerUsage, f: Features, w: Weather, rivalry: bool)
    requires 0.0 <= base <= bound
    requires Flag(f, "is_wr1") && !Flag(f, "is_rb1")
    ensures ProjectPlayerYards(base, usage, f, w, rivalry, true).meanYards <= 0.985 * bound
  {
    Wr1Shrink(base, f);
    var y := ScenarioShrink(base, f);
    assert 0.0 <= y <= 0.985 * bound;
    assert ApplyWeatherFactor(y, w, true) <= y;
  }

  /** More base yards never give fewer projected yards. */
  lemma MeanYardsMonotone(a: real, b: real, usage: PlayerUsage, f: Features, w: Weather, rivalry: bool, isPass: bool)
    requires a <= b
    ensures ProjectPlayerYards(a, usage, f, w, rivalry, isPass).meanYards <=
      ProjectPlayerYards(b, usage, f, w, rivalry, isPass).meanYards
  {
    ShrinkMonotone(a, b, f);
    AdjustersMonotone(ScenarioShrink(a, f), ScenarioShrink(b, f), w, isPass, rivalry);
    AdjustersMonotone(ApplyWeatherFactor(ScenarioShrink(a, f), w, isPass), ApplyWeatherFactor(ScenarioShrink(b, f), w, isPass), w, isPass, rivalry);
  }

  lemma ShrinkMonotone(a: real, b: real, f: Features)
    requires a <= b
    ensures ScenarioShrink(a, f) <= ScenarioShrink(b, f)
  {
    ShrinkClosedForm(a, f);
    ShrinkClosedForm(b, f);
    ScaleMonotone(b - a, 0.0, ShrinkFactor(f));
  }

  /** The yards do not depend on the usage, and the receptions and touchdowns
      depend on nothing but the usage. */
  lemma YardsAndUsageSeparate(base: real, u1: PlayerUsage, u2: PlayerUsage, f: Features, w: Weather, rivalry: bool, isPass: bool)
    ensures ProjectPlayerYards(base, u1, f, w, rivalry, isPass).meanYards == ProjectPlayerYards(base, u2, f, w, rivalry, isPass).meanYards
    ensures
      var p1 := ProjectPlayerYards(base, u1, f, w, rivalry, isPass);
      var p2 := ProjectPlayerYards(0.0, u1, map[], Weather(None, None), false, !isPass);
      p1.meanRecs == p2.meanRecs && p1.floorRecs == p2.floorRecs && p1.meanTds == p2.meanTds && p1.floorTds == p2.floorTds
  {
  }

  /** Base 100, no weather, a rivalry game, a non-pass stat and no WR1/RB1 flag
      give 96 mean and 81.6 floor yards. */
  lemma WorkedExample(usage: PlayerUsage)
    ensures
      var p := ProjectPlayerYards(100.0, usage, map[], Weather(None, None), true, false);
      p.meanYards == 96.0 && p.floorYards == 81.6
  {
  }
}

=== FILE: starters.dfy ===
/** Starter resolution: checks a user lineup against the official depth chart
    (projections_pipeline.py, `validate_and_build_starters`). */
module Starters {
  import opened Wrappers

  /** The exceptions the projection pipeline can raise:
      KeyError (`MissingKey`), IndexError (`IndexOutOfRange`) and the
      ValueError naming an unlisted starter (`NotListed`). */
  datatype PipelineError =
    | MissingKey(key: string)
    | IndexOutOfRange(key: string, index: nat)
    | NotListed(name: string, key: string)

  /** Position code ("QB", "RB", "WR", "TE") to the ranked player names. */
  type DepthChart = map<string, seq<string>>

  /** The lineup as the user declared it; any slot may be `None`. */
  datatype StarterConfig = StarterConfig(
    qb: Option<string>,
    rb1: Option<string>, rb2: Option<string>,
    wr1: Option<string>, wr2: Option<string>, wr3: Option<string>,
    te1: Option<string>, te2: Option<string>)

  /** A resolved lineup: mandatory slots hold a name, rb2/wr3/te2 may be empty. */
  datatype Starters = Starters(
    qb: string,
    rb1: string, rb2: Option<string>,
    wr1: string, wr2: string, wr3: Option<string>,
    te1: string, te2: Option<string>)

  /** Python falsiness of an optional name: `None` or the empty string. */
  predicate Blank(name: Option<string>) {
    name == None || name == Some("")
  }

  /** The inner `ensure(pos_key, name, index)`: a supplied name must be listed
      at the position; a `None` is replaced by the chart's entry at `index`. */
  function Ensure(depth: DepthChart, pos: string, name: Option<string>, index: nat): (r: Result<string, PipelineError>)
    ensures r.Success? ==> pos in depth && r.value in depth[pos]
    ensures name.Some? ==> (r.Success? <==> pos in depth && name.value in depth[pos])
    ensures name.Some? && r.Success? ==> r.value == name.value
    ensures name.None? ==> (r.Success? <==> pos in depth && index < |depth[pos]|)
    ensures name.None? && r.Success? ==> r.value == depth[pos][index]
    ensures pos !in depth ==> r == Failure(MissingKey(pos))
    ensures pos in depth && r.Failure? ==>
      r.error == (if name.Some? then NotListed(name.value, pos) else IndexOutOfRange(pos, index))
  {
    if pos !in depth then Failure(MissingKey(pos))
    else match name
      case None =>
        if index < |depth[pos]| then Success(depth[pos][index]) else Failure(IndexOutOfRange(pos, index))
      case Some(n) =>
        if n in depth[pos] then Success(n) else Failure(NotListed(n, pos))
  }

  /** An optional slot: blank means no player, otherwise it is checked like a mandatory one. */
  function EnsureOptional(depth: DepthChart, pos: string, name: Option<string>, index: nat): (r: Result<Option<string>, PipelineError>)
    ensures Blank(name) ==> r == Success(None)
    ensures !Blank(name) ==> (r.Success? <==> pos in depth && name.value in depth[pos])
    ensures !Blank(name) && r.Success? ==> r.value == name
    ensures !Blank(name) && r.Failure? ==>
      r.error == (if pos !in depth then MissingKey(pos) else NotListed(name.value, pos))
  {
    if Blank(name) then Success(None)
    else
      var n :- Ensure(depth, pos, name, index);
      Success(Some(n))
  }

  /** Independent statement of when one slot resolves: the position is on the
      chart, and either the supplied name is listed there or the chart is long
      enough to fill the slot. */
  predicate SlotResolves(depth: DepthChart, pos: string, name: Option<string>, index: nat) {
    pos in depth && (if name.None? then index < |depth[pos]| else name.value in depth[pos])
  }

  /** One slot of the lineup: its position, the declared name, the chart index a
      `None` takes, and whether a blank declaration leaves it empty. */
  datatype Slot = Slot(pos: string, declared: Option<string>, index: nat, optional: bool)

  /** The slots in the order the lineup is built: qb, rb1, rb2, wr1, wr2, wr3, te1, te2. */
  function Slots(user: StarterConfig): (s: seq<Slot>)
    ensures |s| == 8
  {
    [Slot("QB", user.qb, 0, false),
     Slot("RB", user.rb1, 0, false), Slot("RB", user.rb2, 1, true),
     Slot("WR", user.wr1, 0, false), Slot("WR", user.wr2, 1, false), Slot("WR", user.wr3, 2, true),
     Slot("TE", user.te1, 0, false), Slot("TE", user.te2, 1, true)]
  }

  /** A slot resolves when it is an optional one left blank, or when it resolves on the chart. */
  predicate Resolved(depth: DepthChart, s: Slot) {
    (s.optional && Blank(s.declared)) || SlotResolves(depth, s.pos, s.declared, s.index)
  }

  /** The error an unresolved slot raises: its position is missing, the chart is
      too short for a `None`, or the supplied name is not listed. */
  function SlotError(depth: DepthChart, s: Slot): PipelineError {
    if s.pos !in depth then MissingKey(s.pos)
    else if s.declared.None? then IndexOutOfRange(s.pos, s.index)
    else NotListed(s.declared.value, s.pos)
  }

  /** Slot `i` is the first of the lineup that does not resolve. */
  predicate FirstUnresolved(depth: DepthChart, slots: seq<Slot>, i: int) {
    0 <= i < |slots| && !Resolved(depth, slots[i]) && forall j :: 0 <= j < i ==> Resolved(depth, slots[j])
  }

  /** A lineup every slot of which resolves; blank optional slots always do. */
  predicate Admissible(depth: DepthChart, user: StarterConfig) {
    && SlotResolves(depth, "QB", user.qb, 0)
    && SlotResolves(depth, "RB", user.rb1, 0)
    && (Blank(user.rb2) || SlotResolves(depth, "RB", user.rb2, 1))
    && SlotResolves(depth, "WR", user.wr1, 0)
    && SlotResolves(depth, "WR", user.wr2, 1)
    && (Blank(user.wr3) || SlotResolves(depth, "WR", user.wr3, 2))
    && SlotResolves(depth, "TE", user.te1, 0)
    && (Blank(user.te2) || SlotResolves(depth, "TE", user.te2, 1))
  }

  /** Every name of a resolved lineup is listed at its position. */
  predicate OnChart(depth: DepthChart, s: Starters) {
    && "QB" in depth && s.qb in depth["QB"]
    && "RB" in depth && s.rb1 in depth["RB"] && (s.rb2.Some? ==> s.rb2.value in depth["RB"])
    && "WR" in depth && s.wr1 in depth["WR"] && s.wr2 in depth["WR"] && (s.wr3.Some? ==> s.wr3.value in depth["WR"])
    && "TE" in depth && s.te1 in depth["TE"] && (s.te2.Some? ==> s.te2.value in depth["TE"])
  }

  /** How one mandatory slot relates to its declaration: a supplied name is kept,
      a `None` takes the chart's entry at the slot's fixed index. */
  predicate MandatoryKept(depth: DepthChart, pos: string, index: nat, declared: Option<string>, resolved: string) {
    match declared
    case Some(n) => resolved == n
    case None => pos in depth && index < |depth[pos]| && resolved == depth[pos][index]
  }

  /** How one optional slot relates to its declaration: blank stays empty, with no
      fill from the chart; anything else is kept as given. */
  predicate OptionalKept(declared: Option<string>, resolved: Option<string>) {
    if Blank(declared) then resolved == None else resolved == declared
  }

  /** Whether the user supplied `n` for some slot at the given position. */
  predicate SuppliedAt(user: StarterConfig, pos: string, n: string) {
    || (pos == "QB" && user.qb == Some(n))
    || (pos == "RB" && (user.rb1 == Some(n) || user.rb2 == Some(n)))
    || (pos == "WR" && (user.wr1 == Some(n) || user.wr2 == Some(n) || user.wr3 == Some(n)))
    || (pos == "TE" && (user.te1 == Some(n) || user.te2 == Some(n)))
  }

  /** `validate_and_build_starters`: resolves every slot, in the order
      qb, rb1, rb2, wr1, wr2, wr3, te1, te2; the first failing slot raises. */
  function ValidateAndBuildStarters(depth: DepthChart, user: StarterConfig): (r: Result<Starters, PipelineError>)
    ensures r.Success? <==> Admissible(depth, user)
    ensures r.Success? ==> OnChart(depth, r.value)
    ensures r.Success? ==>
      && MandatoryKept(depth, "QB", 0, user.qb, r.value.qb)
      && MandatoryKept(depth, "RB", 0, user.rb1, r.value.rb1)
      && MandatoryKept(depth, "WR", 0, user.wr1, r.value.wr1)
      && MandatoryKept(depth, "WR", 1, user.wr2, r.value.wr2)
      && MandatoryKept(depth, "TE", 0, user.te1, r.value.te1)
    ensures r.Success? ==>
      OptionalKept(user.rb2, r.value.rb2) && OptionalKept(user.wr3, r.value.wr3) && OptionalKept(user.te2, r.value.te2)
    ensures r.Failure? ==> r.error.key in {"QB", "RB", "WR", "TE"}
    ensures r.Failure? && r.error.MissingKey? ==> r.error.key !in depth
    ensures r.Failure? && r.error.NotListed? ==>
      r.error.key in depth && r.error.name !in depth[r.error.key] && SuppliedAt(user, r.error.key, r.error.name)
    ensures r.Failure? && r.error.IndexOutOfRange? ==>
      r.error.key in depth && r.error.index >= |depth[r.error.key]|
  {
    var qb :- Ensure(depth, "QB", user.qb, 0);
    var rb1 :- Ensure(depth, "RB", user.rb1, 0);
    var rb2 :- EnsureOptional(depth, "RB", user.rb2, 1);
    var wr1 :- Ensure(depth, "WR", user.wr1, 0);
    var wr2 :- Ensure(depth, "WR", user.wr2, 1);
    var wr3 :- EnsureOptional(depth, "WR", user.wr3, 2);
    var te1 :- Ensure(depth, "TE", user.te1, 0);
    var te2 :- EnsureOptional(depth, "TE", user.te2, 1);
    Success(Starters(qb, rb1, rb2, wr1, wr2, wr3, te1, te2))
  }

  /** A supplied starter who is not on the chart is reported by name and position
      when every earlier slot resolves. */
  lemma UnlistedQuarterbackRejected(depth: DepthChart, user: StarterConfig, n: string)
    requires user.qb == Some(n)
    requires "QB" in depth && n !in depth["QB"]
    ensures ValidateAndBuildStarters(depth, user) == Failure(NotListed(n, "QB"))
  {
  }

  /** A blank rb2 resolves to no player even when the chart lists a second back. */
  lemma BlankRb2IsNotFilled()
    ensures
      var depth := map["QB" := ["Q"], "RB" := ["A", "B"], "WR" := ["X", "Y"], "TE" := ["T"]];
      var user := StarterConfig(None, None, None, None, None, None, None, None);
      ValidateAndBuildStarters(depth, user) == Success(Starters("Q", "A", None, "X", "Y", None, "T", None))
  {
  }

  /** The lineup is built slot by slot, so a failure is the error of the first
      slot that does not resolve, and of no other. */
  lemma FirstUnresolvedRaises(depth: DepthChart, user: StarterConfig, i: int)
    requires FirstUnresolved(depth, Slots(user), i)
    ensures ValidateAndBuildStarters(depth, user) == Failure(SlotError(depth, Slots(user)[i]))
  {
    var s := Slots(user);
    assert forall j :: 0 <= j < i ==> Resolved(depth, s[j]);
    if i == 0 {
    } else if i == 1 {
      assert Resolved(depth, s[0]);
    } else if i == 2 {
      assert Resolved(depth, s[0]) && Resolved(depth, s[1]);
    } else if i == 3 {
      assert Resolved(depth, s[0]) && Resolved(depth, s[1]) && Resolved(depth, s[2]);
    } else if i == 4 {
      assert Resolved(depth, s[0]) && Resolved(depth, s[1]) && Resolved(depth, s[2]) && Resolved(depth, s[3]);
    } else if i == 5 {
      assert Resolved(depth, s[0]) && Resolved(depth, s[1]) && Resolved(depth, s[2]) && Resolved(depth, s[3]);
      assert Resolved(depth, s[4]);
    } else if i == 6 {
      assert Resolved(depth, s[0]) && Resolved(depth, s[1]) && Resolved(depth, s[2]) && Resolved(depth, s[3]);
      assert Resolved(depth, s[4]) && Resolved(depth, s[5]);
    } else {
      assert Resolved(depth, s[0]) && Resolved(depth, s[1]) && Resolved(depth, s[2]) && Resolved(depth, s[3]);
      assert Resolved(depth, s[4]) && Resolved(depth, s[5]) && Resolved(depth, s[6]);
    }
  }

  /** The lineup fails exactly when some slot is the first unresolved one. */
  lemma FailsAtFirstUnresolved(depth: DepthChart, user: StarterConfig)
    ensures ValidateAndBuildStarters(depth, user).Failure? <==> exists i :: FirstUnresolved(depth, Slots(user), i)
  {
    var s := Slots(user);
    if !Resolved(depth, s[0]) {
      AtFirstUnresolved(depth, user, 0);
    } else if !Resolved(depth, s[1]) {
      AtFirstUnresolved(depth, user, 1);
    } else if !Resolved(depth, s[2]) {
      AtFirstUnresolved(depth, user, 2);
    } else if !Resolved(depth, s[3]) {
      AtFirstUnresolved(depth, user, 3);
    } else if !Resolved(depth, s[4]) {
      AtFirstUnresolved(depth, user, 4);
    } else if !Resolved(depth, s[5]) {
      AtFirstUnresolved(depth, user, 5);
    } else if !Resolved(depth, s[6]) {
      AtFirstUnresolved(depth, user, 6);
    } else if !Resolved(depth, s[7]) {
      AtFirstUnresolved(depth, user, 7);
    } else {
      assert forall j :: 0 <= j < |s| ==> Resolved(depth, s[j]);
      assert Admissible(depth, user);
    }
  }

  lemma AtFirstUnresolved(depth: DepthChart, user: StarterConfig, i: int)
    requires FirstUnresolved(depth, Slots(user), i)
    ensures ValidateAndBuildStarters(depth, user).Failure?
    ensures exists k :: FirstUnresolved(depth, Slots(user), k)
  {
    FirstUnresolvedRaises(depth, user, i);
  }
}

=== FILE: team.dfy ===
/** The WR1 slice of `build_team_projections` (projections_pipeline.py):
    the fetched depth chart, snaps, news flags, matchup metrics and weather
    are parameters; the WR1 is projected from the team's passing yards. */
module Team {
  import opened Wrappers
  import opened Dicts
  import opened Starters
  import opened Usage
  import opened Adjusters
  import opened Projection

  /** The entries of the matchup dictionary the slice reads. */
  datatype MatchupMetrics = MatchupMetrics(
    teamPassYardsProj: Option<real>,
    teamRushYardsProj: Option<real>,
    wr1VsEliteCb: Option<bool>)

  /** `d[key]` on an entry that may be missing: a KeyError names the key. */
  function Need<T>(entry: Option<T>, key: string): (r: Result<T, PipelineError>)
    ensures r.Success? <==> entry.Some?
    ensures r.Success? ==> r.value == entry.value
    ensures r.Failure? ==> r.error == MissingKey(key)
  {
    match entry
    case Some(v) => Success(v)
    case None => Failure(MissingKey(key))
  }

  /** The WR1's feature dictionary: always flagged WR1, never RB1, and facing an
      elite corner exactly when the matchup says so. */
  function Wr1Features(m: MatchupMetrics): (f: Features)
    ensures Flag(f, "is_wr1") && !Flag(f, "is_rb1")
    ensures Flag(f, "wr1_vs_elite_cb") <==> m.wr1VsEliteCb == Some(true)
  {
    map["is_wr1" := true, "wr1_vs_elite_cb" := m.wr1VsEliteCb.GetOr(false)]
  }

  /** When the part after usage derivation succeeds: both team projections
      are present and the WR1 has a usage entry. */
  predicate ProjectionReady(wr1: string, usage: Dict<PlayerUsage>, m: MatchupMetrics) {
    m.teamPassYardsProj.Some? && m.teamRushYardsProj.Some? && wr1 in Keys(usage)
  }

  /** When the whole slice succeeds: the lineup resolves and the rest is ready. */
  predicate Wr1Ready(depth: DepthChart, user: StarterConfig, snaps: Dict<SnapRecord>, flags: map<string, string>, m: MatchupMetrics) {
    var starters := ValidateAndBuildStarters(depth, user);
    starters.Success? && ProjectionReady(starters.value.wr1, DeriveUsageFromSnaps(snaps, flags), m)
  }

  /** The WR1's base yards: the team's passing yards times its target share.
      A share in [0, 1] of a non-negative projection lies between zero and
      the whole projection; a zero share gives none of it and a full share
      all of it. */
  function BaseYards(teamPass: real, u: PlayerUsage): (r: real)
    ensures teamPass >= 0.0 && 0.0 <= u.targetShare <= 1.0 ==> 0.0 <= r <= teamPass
    ensures u.targetShare == 0.0 ==> r == 0.0
    ensures u.targetShare == 1.0 ==> r == teamPass
  {
    ShareOfPass(teamPass, u.targetShare);
    teamPass * u.targetShare
  }

  /** The WR1's projection from its base yards (the team's passing yards
      times its target share), adjusted as a pass stat with the WR1's
      features: mean yards are the base times the combined shrink,
      pass-weather and rivalry factor, clamped at zero, so at most 98.5% of a
      non-negative base; receptions are 26 per unit of target share, so at
      most 26 for a share in [0, 1]. Each floor is a fixed fraction of its
      mean: 85% of the yards and receptions, 70% of the TDs. */
  function Wr1Projection(base: real, u: PlayerUsage, matchup: MatchupMetrics, weather: Weather, rivalry: bool): (p: PlayerProjection)
    ensures p.meanYards == ClampNonNegative(base * CombinedFactor(Wr1Features(matchup), weather, rivalry, true))
    ensures base >= 0.0 ==> p.meanYards <= 0.985 * base
    ensures p.meanRecs == (if u.targetShare > 0.0 then Some(26.0 * u.targetShare) else None)
    ensures u.targetShare <= 1.0 && p.meanRecs.Some? ==> p.meanRecs.value <= 26.0
    ensures p.meanTds == 0.3 + 0.3 * (u.rzRushShare + u.rzTargetShare)
    ensures p.floorYards == 0.85 * p.meanYards && p.floorYards <= p.meanYards
    ensures p.floorRecs == (if u.targetShare > 0.0 then Some(0.85 * (26.0 * u.targetShare)) else None)
    ensures p.floorTds == 0.7 * p.meanTds
  {
    Wr1AtBase(base, u, matchup, weather, rivalry);
    ProjectPlayerYards(base, u, Wr1Features(matchup), weather, rivalry, true)
  }

  /** The part after usage derivation: the two team projections (read in
      that order, each a KeyError when missing), the WR1's usage entry (a
      KeyError when missing), then one projection keyed by the WR1's name,
      with the team's passing yards times the WR1's target share as base. */
  function ProjectWr1(wr1: string, usage: Dict<PlayerUsage>, matchup: MatchupMetrics, weather: Weather, rivalry: bool)
    : (r: Result<Dict<PlayerProjection>, PipelineError>)
    ensures r.Success? <==> ProjectionReady(wr1, usage, matchup)
    ensures r.Success? ==> |r.value| == 1 && r.value[0].0 == wr1
    ensures r.Success? ==>
      var u := Lookup(usage, wr1).value;
      r.value[0].1 == Wr1Projection(BaseYards(matchup.teamPassYardsProj.value, u), u, matchup, weather, rivalry)
    ensures r.Failure? ==>
      r.error == (if matchup.teamPassYardsProj.None? then MissingKey("team_pass_yards_proj")
                  else if matchup.teamRushYardsProj.None? then MissingKey("team_rush_yards_proj")
                  else MissingKey(wr1))
  {
    var teamPass :- Need(matchup.teamPassYardsProj, "team_pass_yards_proj");
    var teamRush :- Need(matchup.teamRushYardsProj, "team_rush_yards_proj");
    var wr1Usage :- Need(Lookup(usage, wr1), wr1);
    Success([(wr1, Wr1Projection(BaseYards(teamPass, wr1Usage), wr1Usage, matchup, weather, rivalry))])
  }

  /** The WR1 slice: starters, then usage, then the projection of the WR1. */
  function BuildWr1Projection(
    depth: DepthChart, user: StarterConfig, snaps: Dict<SnapRecord>, flags: map<string, string>,
    matchup: MatchupMetrics, weather: Weather, rivalry: bool): (r: Result<Dict<PlayerProjection>, PipelineError>)
    ensures r.Success? <==> Wr1Ready(depth, user, snaps, flags, matchup)
    ensures r.Success? ==>
      && |r.value| == 1
      && r.value[0].0 == ValidateAndBuildStarters(depth, user).value.wr1
      && r.value[0].0 in depth["WR"]
      && r.value[0].0 in Keys(snaps)
    ensures r.Success? ==>
      var u := Lookup(DeriveUsageFromSnaps(snaps, flags), r.value[0].0).value;
      r.value[0].1 == Wr1Projection(BaseYards(matchup.teamPassYardsProj.value, u), u, matchup, weather, rivalry)
    ensures !Admissible(depth, user) ==> r == ValidateAndBuildStarters(depth, user).PropagateFailure()
    ensures Admissible(depth, user) && r.Failure? ==>
      r.error == (if matchup.teamPassYardsProj.None? then MissingKey("team_pass_yards_proj")
                  else if matchup.teamRushYardsProj.None? then MissingKey("team_rush_yards_proj")
                  else MissingKey(ValidateAndBuildStarters(depth, user).value.wr1))
  {
    var starters :- ValidateAndBuildStarters(depth, user);
    ProjectWr1(starters.wr1, DeriveUsageFromSnaps(snaps, flags), matchup, weather, rivalry)
  }

  // ---------- properties ----------

  /** With non-negative counts, every target share of the derived usage lies in [0, 1]. */
  lemma TargetShareInUnit(snaps: Dict<SnapRecord>, flags: map<string, string>, i: int)
    requires NonNegative(snaps)
    requires 0 <= i < |snaps|
    ensures 0.0 <= DeriveUsageFromSnaps(snaps, flags)[i].1.targetShare <= 1.0
  {
    if exists j :: 0 <= j < |snaps| && CountOf(snaps[j].1, Targets) > 0.0 {
      SharesSumToOne(snaps, flags, Targets);
    } else {
      forall j | 0 <= j < |snaps|
        ensures CountOf(snaps[j].1, Targets) == 0.0
      {
        assert CountOf(snaps[j].1, Targets) >= 0.0;
      }
      ZeroCountsGiveZeroShares(snaps, flags, Targets);
    }
  }

  /** Every target share of a usage dictionary lies in [0, 1]. */
  predicate TargetSharesInUnit(usage: Dict<PlayerUsage>) {
    forall i :: 0 <= i < |usage| ==> 0.0 <= usage[i].1.targetShare <= 1.0
  }

  lemma DerivedSharesInUnit(snaps: Dict<SnapRecord>, flags: map<string, string>)
    requires NonNegative(snaps)
    ensures TargetSharesInUnit(DeriveUsageFromSnaps(snaps, flags))
  {
    forall i | 0 <= i < |snaps|
      ensures 0.0 <= DeriveUsageFromSnaps(snaps, flags)[i].1.targetShare <= 1.0
    {
      TargetShareInUnit(snaps, flags, i);
    }
  }

  /** With non-negative counts and a non-negative team passing projection, the
      WR1's projected yards never exceed 98.5% of the team's projected passing
      yards, and its projected receptions never exceed 26. */
  lemma Wr1ProjectionBounded(
    depth: DepthChart, user: StarterConfig, snaps: Dict<SnapRecord>, flags: map<string, string>,
    matchup: MatchupMetrics, weather: Weather, rivalry: bool)
    requires NonNegative(snaps)
    requires Wr1Ready(depth, user, snaps, flags, matchup) && matchup.teamPassYardsProj.value >= 0.0
    ensures
      var p := BuildWr1Projection(depth, user, snaps, flags, matchup, weather, rivalry).value[0].1;
      && 0.0 <= p.meanYards <= 0.985 * matchup.teamPassYardsProj.value
      && (p.meanRecs.Some? ==> p.meanRecs.value <= 26.0)
  {
    var usage := DeriveUsageFromSnaps(snaps, flags);
    var wr1 := ValidateAndBuildStarters(depth, user).value.wr1;
    DerivedSharesInUnit(snaps, flags);
    var u := Lookup(usage, wr1).value;
    var i :| 0 <= i < |usage| && usage[i] == (wr1, u);
  }

  /** A WR1 pass stat in closed form, and at most 98.5% of its own non-negative base. */
  lemma Wr1AtBase(base: real, u: PlayerUsage, matchup: MatchupMetrics, weather: Weather, rivalry: bool)
    ensures ProjectPlayerYards(base, u, Wr1Features(matchup), weather, rivalry, true).meanYards ==
      ClampNonNegative(base * CombinedFactor(Wr1Features(matchup), weather, rivalry, true))
    ensures base >= 0.0 ==>
      ProjectPlayerYards(base, u, Wr1Features(matchup), weather, rivalry, true).meanYards <= 0.985 * base
  {
    MeanYardsClosedForm(base, u, Wr1Features(matchup), weather, rivalry, true);
    if base >= 0.0 {
      Wr1PassYardsBound(base, base, u, Wr1Features(matchup), weather, rivalry);
    }
  }

  lemma ShareOfPass(pass: real, share: real)
    ensures pass >= 0.0 && 0.0 <= share <= 1.0 ==> 0.0 <= pass * share <= pass
  {
    if pass >= 0.0 && 0.0 <= share <= 1.0 {
      ScaleMonotone(pass, share, 1.0);
    }
  }
}

=== FILE: usage.dfy ===
/** The usage deriver (projections_pipeline.py, `derive_usage_from_snaps`):
    raw per-player counts become team shares, nudged by news flags; rush and
    target shares are then renormalised, red-zone shares are not. */
module Usage {
  import opened Dicts

  /** One player's raw usage over the trailing window (`snaps[player]`). */
  datatype SnapRecord = SnapRecord(snapPct: real, rushAtt: real, targets: real, rzRush: real, rzTgt: real)

  /** The derived shares of one player (`PlayerUsage`). */
  datatype PlayerUsage = PlayerUsage(snapShare: real, rushShare: real, targetShare: real, rzRushShare: real, rzTargetShare: real)

  /** The four counted categories; each has a raw count and a derived share. */
  datatype Category = Rush | Targets | RzRush | RzTargets

  /** Only rush and target shares are renormalised after the news nudge. */
  predicate Renormalised(c: Category) {
    c == Rush || c == Targets
  }

  function CountOf(s: SnapRecord, c: Category): real {
    match c
    case Rush => s.rushAtt
    case Targets => s.targets
    case RzRush => s.rzRush
    case RzTargets => s.rzTgt
  }

  function ShareOf(u: PlayerUsage, c: Category): real {
    match c
    case Rush => u.rushShare
    case Targets => u.targetShare
    case RzRush => u.rzRushShare
    case RzTargets => u.rzTargetShare
  }

  /** Counts as the source expects them: never negative. */
  predicate NonNegative(snaps: Dict<SnapRecord>) {
    forall i, c :: 0 <= i < |snaps| ==> CountOf(snaps[i].1, c) >= 0.0
  }

  /** The team total of one category. */
  function Total(snaps: Dict<SnapRecord>, c: Category): real
    decreases |snaps|
  {
    if |snaps| == 0 then 0.0 else CountOf(snaps[0].1, c) + Total(snaps[1..], c)
  }

  /** The sum of one share over every player. */
  function ShareTotal(usage: Dict<PlayerUsage>, c: Category): real
    decreases |usage|
  {
    if |usage| == 0 then 0.0 else ShareOf(usage[0].1, c) + ShareTotal(usage[1..], c)
  }

  /** Python's `total or 1.0`: a zero total is replaced by one, nothing else is. */
  function OrOne(total: real): (r: real)
    ensures r != 0.0
    ensures total == 0.0 ==> r == 1.0
    ensures total != 0.0 ==> r == total
  {
    if total == 0.0 then 1.0 else total
  }

  /** What a player's news flag means for the nudge. */
  datatype News = Up | Down | Steady

  /** `news_flags.get(name)`: only the exact values "arrow_up" and
      "arrow_down" count; any other value, or no entry, is steady. */
  function NewsOf(flags: map<string, string>, name: string): (n: News)
    ensures n == Up <==> name in flags && flags[name] == "arrow_up"
    ensures n == Down <==> name in flags && flags[name] == "arrow_down"
  {
    if name !in flags then Steady
    else if flags[name] == "arrow_up" then Up
    else if flags[name] == "arrow_down" then Down
    else Steady
  }

  /** The multiplier `mult` chosen for a flag. */
  function Multiplier(n: News): real {
    match n
    case Up => 1.1
    case Down => 0.9
    case Steady => 1.0
  }

  /** A value times the multiplier of `n`, written per case (see `NudgeScales`). */
  function Nudge(n: News, x: real): real {
    match n
    case Up => x * 1.1
    case Down => x * 0.9
    case Steady => x
  }

  /** The denominator of the first pass: the category total, floored at one when zero. */
  function Denominator(snaps: Dict<SnapRecord>, c: Category): real {
    OrOne(Total(snaps, c))
  }

  /** First-pass shares of one player: count over team total, times the multiplier. */
  function RawUsage(s: SnapRecord, n: News, all: Dict<SnapRecord>): PlayerUsage {
    PlayerUsage(
      s.snapPct,
      Nudge(n, s.rushAtt / Denominator(all, Rush)),
      Nudge(n, s.targets / Denominator(all, Targets)),
      Nudge(n, s.rzRush / Denominator(all, RzRush)),
      Nudge(n, s.rzTgt / Denominator(all, RzTargets)))
  }

  /** The first loop: every player's first-pass shares, in input order. */
  function Raw(snaps: Dict<SnapRecord>, flags: map<string, string>): (u: Dict<PlayerUsage>)
    ensures |u| == |snaps|
  {
    seq(|snaps|, j requires 0 <= j < |snaps| => (snaps[j].0, RawUsage(snaps[j].1, NewsOf(flags, snaps[j].0), snaps)))
  }

  /** The second loop: rush and target shares divided by their post-nudge totals. */
  function Renormalise(u: Dict<PlayerUsage>, rushTotal: real, tgtTotal: real): (v: Dict<PlayerUsage>)
    requires rushTotal != 0.0 && tgtTotal != 0.0
    ensures |v| == |u|
  {
    seq(|u|, j requires 0 <= j < |u| =>
      (u[j].0, u[j].1.(rushShare := u[j].1.rushShare / rushTotal, targetShare := u[j].1.targetShare / tgtTotal)))
  }

  /** `derive_usage_from_snaps`: one usage record per input entry, in the same
      order, with the snap percentage passed through untouched. */
  function DeriveUsageFromSnaps(snaps: Dict<SnapRecord>, flags: map<string, string>): (usage: Dict<PlayerUsage>)
    ensures Keys(usage) == Keys(snaps)
    ensures forall i :: 0 <= i < |usage| ==> usage[i].1.snapShare == snaps[i].1.snapPct
  {
    var raw := Raw(snaps, flags);
    Renormalise(raw, OrOne(ShareTotal(raw, Rush)), OrOne(ShareTotal(raw, Targets)))
  }

  /** Reference: every count nudged by its player's flag, summed over the team. */
  function WeightedTotal(snaps: Dict<SnapRecord>, flags: map<string, string>, c: Category): real
    decreases |snaps|
  {
    if |snaps| == 0 then 0.0
    else Nudge(NewsOf(flags, snaps[0].0), CountOf(snaps[0].1, c)) + WeightedTotal(snaps[1..], flags, c)
  }

  // ---------- arithmetic facts ----------

  lemma NudgeScales(n: News, x: real)
    ensures Nudge(n, x) == x * Multiplier(n)
    ensures x >= 0.0 ==> 0.9 * x <= Nudge(n, x) <= 1.1 * x
  {
  }

  lemma NudgeDiv(n: News, a: real, d: real)
    requires d != 0.0
    ensures Nudge(n, a / d) == Nudge(n, a) / d
  {
  }

  lemma DivAdd(a: real, b: real, d: real)
    requires d != 0.0
    ensures a / d + b / d == (a + b) / d
  {
  }

  lemma RatioOfRatios(x: real, t: real, w: real)
    requires t != 0.0 && w != 0.0
    ensures (x / t) / (w / t) == x / w
  {
  }

  lemma UnitFraction(x: real, s: real)
    requires 0.0 <= x <= s && s > 0.0
    ensures 0.0 <= x / s <= 1.0
  {
  }

  lemma NonNegativeRatio(a: real, d: real)
    requires a >= 0.0 && d > 0.0
    ensures a / d >= 0.0
  {
  }

  lemma RatioBounds(w: real, t: real)
    requires t > 0.0 && 0.9 * t <= w <= 1.1 * t
    ensures 0.9 <= w / t <= 1.1
  {
  }

  lemma SelfRatio(t: real)
    requires t != 0.0
    ensures t / t == 1.0
  {
  }

  // ---------- structural facts ----------

  lemma {:induction false} CountBelowTotal(snaps: Dict<SnapRecord>, c: Category, i: int)
    requires NonNegative(snaps)
    requires 0 <= i < |snaps|
    ensures 0.0 <= CountOf(snaps[i].1, c) <= Total(snaps, c)
    decreases |snaps|
  {
    TotalNonNegative(snaps[1..], c);
    if i > 0 {
      assert snaps[1..][i - 1] == snaps[i];
      CountBelowTotal(snaps[1..], c, i - 1);
    }
  }

  lemma {:induction false} TotalNonNegative(snaps: Dict<SnapRecord>, c: Category)
    requires NonNegative(snaps)
    ensures Total(snaps, c) >= 0.0
    decreases |snaps|
  {
    if |snaps| > 0 {
      TotalNonNegative(snaps[1..], c);
    }
  }

  lemma {:induction false} ShareBelowTotal(u: Dict<PlayerUsage>, c: Category, i: int)
    requires forall j :: 0 <= j < |u| ==> ShareOf(u[j].1, c) >= 0.0
    requires 0 <= i < |u|
    ensures ShareOf(u[i].1, c) <= ShareTotal(u, c)
    decreases |u|
  {
    ShareTotalNonNegative(u[1..], c);
    if i > 0 {
      assert u[1..][i - 1] == u[i];
      ShareBelowTotal(u[1..], c, i - 1);
    }
  }

  lemma {:induction false} ShareTotalNonNegative(u: Dict<PlayerUsage>, c: Category)
    requires forall j :: 0 <= j < |u| ==> ShareOf(u[j].1, c) >= 0.0
    ensures ShareTotal(u, c) >= 0.0
    decreases |u|
  {
    if |u| > 0 {
      ShareTotalNonNegative(u[1..], c);
    }
  }

  /** With non-negative counts the nudges keep the weighted total within a tenth of the plain one. */
  lemma {:induction false} WeightedTotalBounds(snaps: Dict<SnapRecord>, flags: map<string, string>, c: Category)
    requires NonNegative(snaps)
    ensures 0.9 * Total(snaps, c) <= WeightedTotal(snaps, flags, c) <= 1.1 * Total(snaps, c)
    decreases |snaps|
  {
    if |snaps| > 0 {
      WeightedTotalBounds(snaps[1..], flags, c);
      NudgeScales(NewsOf(flags, snaps[0].0), CountOf(snaps[0].1, c));
    }
  }

  /** The first-pass share of player `i`. */
  lemma RawShareAt(snaps: Dict<SnapRecord>, flags: map<string, string>, i: int, c: Category)
    requires 0 <= i < |snaps|
    ensures ShareOf(Raw(snaps, flags)[i].1, c) ==
      Nudge(NewsOf(flags, snaps[i].0), CountOf(snaps[i].1, c)) / Denominator(snaps, c)
  {
    var s, n := snaps[i].1, NewsOf(flags, snaps[i].0);
    assert Raw(snaps, flags)[i].1 == RawUsage(s, n, snaps);
    NudgeDiv(n, CountOf(s, c), Denominator(snaps, c));
  }

  /** The final share of player `i` in terms of its first-pass share. */
  lemma ShareAt(snaps: Dict<SnapRecord>, flags: map<string, string>, i: int, c: Category)
    requires 0 <= i < |snaps|
    ensures ShareOf(DeriveUsageFromSnaps(snaps, flags)[i].1, c) ==
      if Renormalised(c)
      then ShareOf(Raw(snaps, flags)[i].1, c) / OrOne(ShareTotal(Raw(snaps, flags), c))
      else ShareOf(Raw(snaps, flags)[i].1, c)
  {
    var raw := Raw(snaps, flags);
    var a, b := OrOne(ShareTotal(raw, Rush)), OrOne(ShareTotal(raw, Targets));
    var r := raw[i].1;
    assert DeriveUsageFromSnaps(snaps, flags)[i].1 == r.(rushShare := r.rushShare / a, targetShare := r.targetShare / b);
  }

  /** Summing shares that are each a nudged count over a common denominator. */
  lemma {:induction false} NudgedTotal(u: Dict<PlayerUsage>, rest: Dict<SnapRecord>, flags: map<string, string>, d: real, c: Category)
    requires d != 0.0 && |u| == |rest|
    requires forall j :: 0 <= j < |u| ==> ShareOf(u[j].1, c) == Nudge(NewsOf(flags, rest[j].0), CountOf(rest[j].1, c)) / d
    ensures ShareTotal(u, c) == WeightedTotal(rest, flags, c) / d
    decreases |u|
  {
    if |u| > 0 {
      assert forall j :: 0 <= j < |u| - 1 ==> u[1..][j] == u[j + 1] && rest[1..][j] == rest[j + 1];
      NudgedTotal(u[1..], rest[1..], flags, d, c);
      DivAdd(Nudge(NewsOf(flags, rest[0].0), CountOf(rest[0].1, c)), WeightedTotal(rest[1..], flags, c), d);
    }
  }

  /** Summing shares that are each divided by a common factor. */
  lemma {:induction false} ScaledTotal(v: Dict<PlayerUsage>, u: Dict<PlayerUsage>, k: real, c: Category)
    requires k != 0.0 && |v| == |u|
    requires forall j :: 0 <= j < |v| ==> ShareOf(v[j].1, c) == ShareOf(u[j].1, c) / k
    ensures ShareTotal(v, c) == ShareTotal(u, c) / k
    decreases |v|
  {
    if |v| > 0 {
      assert forall j :: 0 <= j < |v| - 1 ==> v[1..][j] == v[j + 1] && u[1..][j] == u[j + 1];
      ScaledTotal(v[1..], u[1..], k, c);
      DivAdd(ShareOf(u[0].1, c), ShareTotal(u[1..], c), k);
    }
  }

  /** Summing shares that are pointwise equal. */
  lemma {:induction false} EqualTotal(v: Dict<PlayerUsage>, u: Dict<PlayerUsage>, c: Category)
    requires |v| == |u|
    requires forall j :: 0 <= j < |v| ==> ShareOf(v[j].1, c) == ShareOf(u[j].1, c)
    ensures ShareTotal(v, c) == ShareTotal(u, c)
    decreases |v|
  {
    if |v| > 0 {
      assert forall j :: 0 <= j < |v| - 1 ==> v[1..][j] == v[j + 1] && u[1..][j] == u[j + 1];
      EqualTotal(v[1..], u[1..], c);
    }
  }

  /** The first pass divides the weighted total by the first-pass denominator. */
  lemma FirstPassTotal(snaps: Dict<SnapRecord>, flags: map<string, string>, c: Category)
    ensures ShareTotal(Raw(snaps, flags), c) == WeightedTotal(snaps, flags, c) / Denominator(snaps, c)
  {
    forall j | 0 <= j < |snaps|
      ensures ShareOf(Raw(snaps, flags)[j].1, c) == Nudge(NewsOf(flags, snaps[j].0), CountOf(snaps[j].1, c)) / Denominator(snaps, c)
    {
      RawShareAt(snaps, flags, j, c);
    }
    NudgedTotal(Raw(snaps, flags), snaps, flags, Denominator(snaps, c), c);
  }

  /** The final total of a category in terms of its first-pass total. */
  lemma FinalTotal(snaps: Dict<SnapRecord>, flags: map<string, string>, c: Category)
    ensures ShareTotal(DeriveUsageFromSnaps(snaps, flags), c) ==
      if Renormalised(c)
      then ShareTotal(Raw(snaps, flags), c) / OrOne(ShareTotal(Raw(snaps, flags), c))
      else ShareTotal(Raw(snaps, flags), c)
  {
    var raw := Raw(snaps, flags);
    var usage := DeriveUsageFromSnaps(snaps, flags);
    forall j | 0 <= j < |snaps|
      ensures ShareOf(usage[j].1, c) ==
        if Renormalised(c) then ShareOf(raw[j].1, c) / OrOne(ShareTotal(raw, c)) else ShareOf(raw[j].1, c)
    {
      ShareAt(snaps, flags, j, c);
    }
    if Renormalised(c) {
      ScaledTotal(usage, raw, OrOne(ShareTotal(raw, c)), c);
    } else {
      EqualTotal(usage, raw, c);
    }
  }

  // ---------- properties ----------

  /** The two-pass computation agrees with a one-pass reference: each rush (or
      target) share is the player's nudged count over the team's nudged
      total, which is positive once the plain total is. */
  lemma WeightedShareReference(snaps: Dict<SnapRecord>, flags: map<string, string>, c: Category, i: int)
    requires Renormalised(c)
    requires NonNegative(snaps)
    requires Total(snaps, c) > 0.0
    requires 0 <= i < |snaps|
    ensures WeightedTotal(snaps, flags, c) > 0.0
    ensures ShareOf(DeriveUsageFromSnaps(snaps, flags)[i].1, c) ==
      Nudge(NewsOf(flags, snaps[i].0), CountOf(snaps[i].1, c)) / WeightedTotal(snaps, flags, c)
  {
    WeightedTotalBounds(snaps, flags, c);
    RawShareAt(snaps, flags, i, c);
    ShareAt(snaps, flags, i, c);
    FirstPassTotal(snaps, flags, c);
    RatioOfRatios(Nudge(NewsOf(flags, snaps[i].0), CountOf(snaps[i].1, c)), Total(snaps, c), WeightedTotal(snaps, flags, c));
  }

  /** Renormalisation: once some player has a positive count, the rush (or
      target) shares sum to exactly one and each lies in [0, 1]. */
  lemma SharesSumToOne(snaps: Dict<SnapRecord>, flags: map<string, string>, c: Category)
    requires Renormalised(c)
    requires NonNegative(snaps)
    requires exists i :: 0 <= i < |snaps| && CountOf(snaps[i].1, c) > 0.0
    ensures ShareTotal(DeriveUsageFromSnaps(snaps, flags), c) == 1.0
    ensures forall i :: 0 <= i < |snaps| ==> 0.0 <= ShareOf(DeriveUsageFromSnaps(snaps, flags)[i].1, c) <= 1.0
  {
    var k :| 0 <= k < |snaps| && CountOf(snaps[k].1, c) > 0.0;
    CountBelowTotal(snaps, c, k);
    var raw := Raw(snaps, flags);
    var s := ShareTotal(raw, c);
    PositiveRawTotal(snaps, flags, c);
    FinalTotal(snaps, flags, c);
    SelfRatio(s);
    RawSharesNonNegative(snaps, flags, c);
    forall i | 0 <= i < |snaps|
      ensures 0.0 <= ShareOf(DeriveUsageFromSnaps(snaps, flags)[i].1, c) <= 1.0
    {
      ShareAt(snaps, flags, i, c);
      ShareBelowTotal(raw, c, i);
      UnitFraction(ShareOf(raw[i].1, c), s);
    }
  }

  /** With a positive plain total the first-pass total is positive too. */
  lemma PositiveRawTotal(snaps: Dict<SnapRecord>, flags: map<string, string>, c: Category)
    requires NonNegative(snaps)
    requires Total(snaps, c) > 0.0
    ensures ShareTotal(Raw(snaps, flags), c) > 0.0
  {
    FirstPassTotal(snaps, flags, c);
    WeightedTotalBounds(snaps, flags, c);
    RatioBounds(WeightedTotal(snaps, flags, c), Total(snaps, c));
  }

  /** Non-negative counts give non-negative first-pass shares. */
  lemma RawSharesNonNegative(snaps: Dict<SnapRecord>, flags: map<string, string>, c: Category)
    requires NonNegative(snaps)
    ensures forall j :: 0 <= j < |snaps| ==> ShareOf(Raw(snaps, flags)[j].1, c) >= 0.0
  {
    TotalNonNegative(snaps, c);
    forall j | 0 <= j < |snaps|
      ensures ShareOf(Raw(snaps, flags)[j].1, c) >= 0.0
    {
      RawShareAt(snaps, flags, j, c);
      NudgeScales(NewsOf(flags, snaps[j].0), CountOf(snaps[j].1, c));
      NonNegativeRatio(Nudge(NewsOf(flags, snaps[j].0), CountOf(snaps[j].1, c)), Denominator(snaps, c));
    }
  }

  /** Without any news flag for the listed players the nudge and the
      renormalisation are no-ops: every share is the plain count over the
      (zero-floored) team total. */
  lemma NoFlagsGivesPlainShares(snaps: Dict<SnapRecord>, flags: map<string, string>, c: Category, i: int)
    requires forall j :: 0 <= j < |snaps| ==> snaps[j].0 !in flags
    requires 0 <= i < |snaps|
    ensures ShareOf(DeriveUsageFromSnaps(snaps, flags)[i].1, c) == CountOf(snaps[i].1, c) / Denominator(snaps, c)
  {
    var raw := Raw(snaps, flags);
    ShareAt(snaps, flags, i, c);
    RawShareAt(snaps, flags, i, c);
    if Renormalised(c) {
      FirstPassTotal(snaps, flags, c);
      NoFlagsWeightedTotal(snaps, flags, c);
      var t := Total(snaps, c);
      if t != 0.0 {
        SelfRatio(t);
      }
      assert OrOne(ShareTotal(raw, c)) == 1.0;
    }
  }

  lemma {:induction false} NoFlagsWeightedTotal(snaps: Dict<SnapRecord>, flags: map<string, string>, c: Category)
    requires forall j :: 0 <= j < |snaps| ==> snaps[j].0 !in flags
    ensures WeightedTotal(snaps, flags, c) == Total(snaps, c)
    decreases |snaps|
  {
    if |snaps| > 0 {
      assert forall j :: 0 <= j < |snaps| - 1 ==> snaps[1..][j] == snaps[j + 1];
      NoFlagsWeightedTotal(snaps[1..], flags, c);
    }
  }

  /** Degenerate input: when a category's counts are all zero (in particular
      for an empty input) every share of that category is zero, with no
      division by zero. */
  lemma ZeroCountsGiveZeroShares(snaps: Dict<SnapRecord>, flags: map<string, string>, c: Category)
    requires forall i :: 0 <= i < |snaps| ==> CountOf(snaps[i].1, c) == 0.0
    ensures forall i :: 0 <= i < |snaps| ==> ShareOf(DeriveUsageFromSnaps(snaps, flags)[i].1, c) == 0.0
  {
    forall i | 0 <= i < |snaps|
      ensures ShareOf(DeriveUsageFromSnaps(snaps, flags)[i].1, c) == 0.0
    {
      ZeroShareAt(snaps, flags, c, i);
    }
  }

  lemma ZeroShareAt(snaps: Dict<SnapRecord>, flags: map<string, string>, c: Category, i: int)
    requires 0 <= i < |snaps| && CountOf(snaps[i].1, c) == 0.0
    ensures ShareOf(DeriveUsageFromSnaps(snaps, flags)[i].1, c) == 0.0
  {
    var raw := Raw(snaps, flags);
    RawShareAt(snaps, flags, i, c);
    assert Nudge(NewsOf(flags, snaps[i].0), CountOf(snaps[i].1, c)) == 0.0;
    ZeroOver(Denominator(snaps, c));
    assert ShareOf(raw[i].1, c) == 0.0;
    ShareAt(snaps, flags, i, c);
    ZeroOver(OrOne(ShareTotal(raw, c)));
  }

  lemma ZeroOver(d: real)
    requires d != 0.0
    ensures 0.0 / d == 0.0
  {
  }

  /** Red-zone shares get the news nudge but are never renormalised: each is
      the nudged raw fraction, and their sum stays within a tenth of one
      instead of being exactly one. */
  lemma RedZoneSharesNotRenormalised(snaps: Dict<SnapRecord>, flags: map<string, string>, c: Category)
    requires !Renormalised(c)
    ensures forall i :: 0 <= i < |snaps| ==>
      ShareOf(DeriveUsageFromSnaps(snaps, flags)[i].1, c) ==
      Nudge(NewsOf(flags, snaps[i].0), CountOf(snaps[i].1, c)) / Denominator(snaps, c)
    ensures NonNegative(snaps) && Total(snaps, c) > 0.0 ==>
      0.9 <= ShareTotal(DeriveUsageFromSnaps(snaps, flags), c) <= 1.1
  {
    forall i | 0 <= i < |snaps|
      ensures ShareOf(DeriveUsageFromSnaps(snaps, flags)[i].1, c) ==
        Nudge(NewsOf(flags, snaps[i].0), CountOf(snaps[i].1, c)) / Denominator(snaps, c)
    {
      ShareAt(snaps, flags, i, c);
      RawShareAt(snaps, flags, i, c);
    }
    if NonNegative(snaps) && Total(snaps, c) > 0.0 {
      FirstPassTotal(snaps, flags, c);
      WeightedTotalBounds(snaps, flags, c);
      FinalTotal(snaps, flags, c);
      RatioBounds(WeightedTotal(snaps, flags, c), Total(snaps, c));
    }
  }

  /** A lone player flagged "arrow_up" ends with a red-zone share of 1.1. */
  lemma RedZoneShareCanExceedOne()
    ensures
      var usage := DeriveUsageFromSnaps([("A", SnapRecord(1.0, 0.0, 0.0, 4.0, 0.0))], map["A" := "arrow_up"]);
      usage[0].1.rzRushShare == 1.1
  {
    var snaps := [("A", SnapRecord(1.0, 0.0, 0.0, 4.0, 0.0))];
    var flags := map["A" := "arrow_up"];
    assert Total(snaps, RzRush) == 4.0 by {
      assert snaps[1..] == [];
    }
    ShareAt(snaps, flags, 0, RzRush);
    RawShareAt(snaps, flags, 0, RzRush);
  }

  /** Two backs with 180 and 80 carries and no news split the rushes 9/13 and 4/13. */
  lemma TwoBacksExample()
    ensures
      var snaps := [("A", SnapRecord(0.6, 180.0, 0.0, 0.0, 0.0)), ("B", SnapRecord(0.4, 80.0, 0.0, 0.0, 0.0))];
      var usage := DeriveUsageFromSnaps(snaps, map[]);
      usage[0].1.rushShare == 9.0 / 13.0 && usage[1].1.rushShare == 4.0 / 13.0
  {
    var snaps := [("A", SnapRecord(0.6, 180.0, 0.0, 0.0, 0.0)), ("B", SnapRecord(0.4, 80.0, 0.0, 0.0, 0.0))];
    assert Total(snaps, Rush) == 260.0 by {
      assert snaps[1..][1..] == [];
    }
    NoFlagsGivesPlainShares(snaps, map[], Rush, 0);
    NoFlagsGivesPlainShares(snaps, map[], Rush, 1);
  }
}

=== FILE: wrappers.dfy ===
/** Failure-compatible Option and Result types, used with `:-` to model
    Python's `None` and its raised exceptions. */
module Wrappers {

  /** A value that may be absent, like Python's `Optional[T]`. */
  datatype Option<T> = None | Some(value: T) {

    /** The carried value, or `default` when absent (Python's `dict.get(k, default)`). */
    function GetOr(default: T): T {
      match this
      case Some(v) => v
      case None => default
    }
  }

  /** Either a computed value or the error an exception would have carried. */
  datatype Result<T, E> = Success(value: T) | Failure(error: E) {

    predicate IsFailure() {
      Failure?
    }

    function PropagateFailure<U>(): Result<U, E>
      requires Failure?
    {
      Failure(error)
    }

    function Extract(): T
      requires Success?
    {
      value
    }
  }
}
